=== FILE: README.md ===
# Board game cafe core, modelled in Dafny

A model of the operational core of a board game cafe system written in
Python. It covers three files:

- the loyalty tier policy, the points ledger and the manager guards of `BGC_person.py`;
- the menu items, the menu list and the order line-item machine of `BGC_menu.py`;
- the branch registry operations of `BGC.py`, including the reservation double-booking rule.

The modules are:

- **Common**: `Option`, `Result`, one `Error` constructor per kind of guard in the code, and `Instant`.
  `Instant` is time in microseconds.
- **Lookup**: first-match search by key. This is the `for x in list: if x.id == id` idiom the code
  uses for items, lines, members, orders and branches.
- **Tiers**: `determine_tier`, the per-tier lookup tables and `can_book`.
- **Loyalty**: customers with their visit history, members with points, and the manager's
  void-reason guard.
- **Stock**: `MenuItem` prices, stock arithmetic and availability.
- **Catalog**: `MenuList` with unique item ids.
- **Orders**: `Order` lines, their status machine, subtotal/tax/total and discount.
- **OrderIds**: the `"ORD-%04d"` ids made by `create_order`, with a parser that reads them back.
- **Reservations**: the half-open interval overlap rule of `create_reservation`.
- **Staffing**: the manager's `remove_staff` and `override_inventory_stock`.
- **Branches**: branch state, `register_member`, `create_reservation`, `create_order`,
  `place_order`, the revenue reports, and the branch list.

Money is an exact `real`, where the code uses floats. Three `datetime.now()` readings are kept,
and the operations that make them take the instant as a parameter: the visit dates and the
order-line timestamps, which are recorded data, and the clock in `can_book`, which a rule reads.
Timestamps that are only stored and reported are dropped: `created_at`, `last_updated` and
`join_date`. Each operation that raises returns a `Result` whose `Error` names the guard that
fired. Each mutation is a function from the old value to the new one. Python hands
out references to shared objects; where the code edits an order through such a reference, the
model does it explicitly with `Branches.UpdateOrder`.

The `BGC.py` operations from `get_branch` onward are indented under the class `BoardGameCafe`,
whose constructor never sets `branches`. The model gives these operations their evident meaning:
functions over an explicit `Branch` or `Cafe` value.

Where the code is lax, the model follows the code:

- `create_reservation` checks only overlap. It does not validate `end > start`, guest count,
  booking quota, duration or advance window.
- The overlap check does not skip cancelled reservations. `Reservations.StatusIgnored` and
  `Reservations.BackToBackScenario` state this.
- `Order.add_item` does not draw down stock.
- `mark_preparing`, `mark_served`, `cancel_item`, `apply_discount` and `close_order` do not look
  at the order's status.
- `cancel_item` on an already cancelled line succeeds.
- After `cancel_order`, `all_items_served` is true, because no line remains that is not cancelled.
- The points multiplier is a lookup only. No modelled operation uses it to credit points.

## Model

| member | source | states |
|---|---|---|
| Tiers.TierOf | BGC_person.py:345-356 | The tier is the highest one whose threshold (2000 / 7500 / 20000) the spend reaches. There is no tier exactly when spend < 2000. |
| Tiers.TierBands | BGC_person.py:345-353 | Platinum iff spend ≥ 20000. Gold iff 7500 ≤ spend < 20000. Silver iff 2000 ≤ spend < 7500. No tier iff spend < 2000. Every boundary is inclusive. |
| Tiers.TierMonotone | BGC_person.py:345-353 | A higher spend never resolves to a lower tier. |
| Tiers.DiscountRate | BGC_person.py:357-366 | The rate lies in [0, 0.15]. It is 0 exactly when there is no tier. |
| Tiers.PointsMultiplier | BGC_person.py:367-376 | The multiplier lies in [1, 2]. It is 1 exactly for no tier or Silver. |
| Tiers.BookingLimits | BGC_person.py:377-402 | The booking quota is 0 exactly when there is no tier, and then every limit is 0. A tier has quota 2..6, 2..4 hours and 7..30 days. |
| Tiers.BenefitsMonotone | BGC_person.py:24-43 | A higher tier never has a lower discount, multiplier, quota, duration or advance window. |
| Tiers.AdvanceDays | BGC_person.py:411 | `timedelta.days` is the whole number of days rounded toward minus infinity. |
| Tiers.CanBook | BGC_person.py:403-414 | False for every spend below 2000. Otherwise true iff the duration is within the tier's maximum and the requested instant falls before the end of the last allowed advance day. |
| Tiers.CanBookMonotone | BGC_person.py:403-414 | A permitted booking stays permitted with more spend, a shorter duration or an earlier date. |
| Loyalty.NewCustomer | BGC_person.py:291-297 | Refused iff the person id or name is empty (the check is inherited from `Person`). A new customer keeps the given id, name and contact, has spend 0 and an empty visit history. |
| Loyalty.IncrementSpend | BGC_person.py:315-323 | Refused iff amount ≤ 0. Otherwise spend grows by exactly the amount and the history gains exactly one entry at the end. |
| Loyalty.IncrementSpendKeepsHistory | BGC_person.py:315-323 | Lifetime spend stays equal to the sum of the visit history. |
| Loyalty.HistoryTotalNonNegative | BGC_person.py:315-323 | A history of positive visits sums to ≥ 0, and to > 0 when non-empty. |
| Loyalty.NewMember | BGC_person.py:334-344 | Refused iff the person id or name is empty. A new member keeps the given person id, name, contact and member id. It has spend 0, no visits, 0 points, is active, is valid and has no tier. |
| Loyalty.MemberTier | BGC_person.py:354-356 | `get_tier` re-derives the tier from the current spend: none iff spend < 2000, and otherwise the highest tier whose threshold the spend reaches. |
| Loyalty.MemberIncrementSpend | BGC_person.py:315-323 | Refused iff amount ≤ 0. Otherwise the member's spend rises by exactly the amount and one visit is appended. Member id, points, active flag, person id, name and contact are unchanged. |
| Loyalty.SpendNeverLowersTier | BGC_person.py:345-356 | Recording spend never demotes a member. |
| Loyalty.AddPoints | BGC_person.py:431-434 | Refused iff amount ≤ 0. Otherwise points rise by exactly the amount and nothing else about the member changes. |
| Loyalty.RedeemPoints | BGC_person.py:436-444 | Refused iff amount ≤ 0 (checked first) or amount > balance. On success the balance drops by exactly the amount and stays ≥ 0, and nothing else changes. |
| Loyalty.RedeemUndoesAdd | BGC_person.py:431-444 | Redeeming what was just credited restores the member. |
| Loyalty.AddUndoesRedeem | BGC_person.py:431-444 | Crediting what was just redeemed restores the member. |
| Loyalty.LedgerKeepsMemberValid | BGC_person.py:315-444 | Points ≥ 0 and spend matching the history survive every ledger operation. |
| Loyalty.ApproveVoidBill | BGC_person.py:222-233 | Accepted iff the manager is active and the reason has at least 10 characters. Inactivity is reported first. |
| Staffing.RemoveStaff | BGC_person.py:246-262 | Refused iff the manager is inactive (checked first) or the reason has fewer than 10 characters. Otherwise it reports whether a staff member has the id. If so, it deactivates the first one, keeping it on the list, and drops the first copy of the id from the managed list. Otherwise nothing changes. |
| Staffing.RemovalOnlyDeactivates | BGC_person.py:246-262 | Removal never adds, drops, reorders or reactivates staff. Everyone without the id keeps their state. |
| Staffing.RemoveStaffTwice | BGC_person.py:246-262 | A second removal of the same id still finds the staff member and leaves the staff list as the first removal did. |
| Staffing.OverrideInventoryStock | BGC_person.py:264-278 | Refused iff the manager is inactive, the quantity is negative or the reason is short, checked in that order. Otherwise only the stock level changes, to the quantity. |
| Staffing.OverrideIsSetStockLevel | BGC_person.py:264-278 | With an active manager and a reason of at least 10 characters, an override is exactly `set_stock_level`, refusals included. |
| Stock.NewMenuItem | BGC_menu.py:25-38 | Refused iff the id or name is empty or the price is negative. A new item keeps the given id, name and price. It has no stock, so it is not available although its flag is set. |
| Stock.IsAvailable | BGC_menu.py:60-62 | An item is available iff its flag is set and it has stock. The contracts of `MarkAvailable`, `MarkUnavailable`, `ReduceStock` and `WithdrawalOutlastsRestock` state what each operation does to it. |
| Stock.SetPrice | BGC_menu.py:72-77 | Refused iff the price is negative. Otherwise only the price changes, so availability is unchanged. |
| Stock.SetStockLevel | BGC_menu.py:83-88 | Refused iff the level is negative. Otherwise only the stock level changes, and availability follows the flag and the new level. |
| Stock.AddStock | BGC_menu.py:90-95 | Refused iff q ≤ 0. Otherwise only the stock changes, rising by exactly q. |
| Stock.ReduceStock | BGC_menu.py:97-106 | Refused iff q ≤ 0 (checked first) or q > stock. Otherwise only the stock changes: it falls by exactly q and stays ≥ 0. The item stays available iff stock remains. |
| Stock.StockRoundTrip | BGC_menu.py:90-106 | Adding then removing q, or removing then adding q, restores the item. |
| Stock.MarkUnavailable | BGC_menu.py:108-110 | The flag is cleared and nothing else changes, so the item is not available whatever its stock. |
| Stock.MarkAvailable | BGC_menu.py:112-114 | The flag is set and nothing else changes, so the item is available exactly when it has stock. |
| Stock.IsLowStock | BGC_menu.py:116-117 | An item is low on stock iff its level is at most 5. `LowStockTracksLevel` relates it to every stock operation. |
| Stock.StockMovesAreSetLevel | BGC_menu.py:83-106 | Every accepted `add_stock` or `reduce_stock` equals `set_stock_level` to the resulting level. |
| Stock.WithdrawalOutlastsRestock | BGC_menu.py:60-62 | A withdrawn item stays unavailable after any restock. `mark_available` undoes `mark_unavailable` on a flagged item, and the converse also holds. |
| Stock.LowStockTracksLevel | BGC_menu.py:116-117 | After any accepted stock change, the item is low exactly when the new level is ≤ 5. |
| Catalog.NewMenuList | BGC_menu.py:217-220 | A new menu is empty, so its ids are unique. |
| Catalog.AddItem | BGC_menu.py:230-235 | Refused iff the id is already listed. Otherwise the item is appended and ids stay unique. |
| Catalog.RemoveItem | BGC_menu.py:237-242 | Reports true iff an item with the id was listed. It removes exactly the first such item and keeps the rest in order. With unique ids, the id is gone afterwards. |
| Catalog.GetItemById | BGC_menu.py:244-248 | None iff no item has the id. Otherwise a listed item with that id, the only one when ids are unique. |
| Catalog.GetAfterAdd | BGC_menu.py:230-248 | Looking up an item just added returns it. |
| Catalog.RemoveAfterAdd | BGC_menu.py:230-242 | Removing an item just added gives back the original menu. |
| Orders.Subtotal | BGC_menu.py:381-384 | The subtotal of valid lines is never negative. |
| Orders.SubtotalAppend | BGC_menu.py:381-384 | The subtotal of concatenated lines is the sum of the subtotals. |
| Orders.SubtotalUpdate | BGC_menu.py:381-384 | Replacing one line changes the subtotal by the difference of the two line amounts. |
| Orders.SubtotalAllCancelled | BGC_menu.py:381-384 | Lines that are all cancelled have subtotal 0. |
| Orders.Total | BGC_menu.py:386-390 | Total = (subtotal − discount)·(1 + tax rate). It is ≥ 0 whenever the discount does not exceed the subtotal. |
| Orders.Tax | BGC_menu.py:386-387 | The rate applied to the discounted subtotal. |
| Orders.TaxBounds | BGC_menu.py:386-387 | On a valid order the tax is 7% of the discounted subtotal. It is ≥ 0 while the discount stays within the subtotal, and 0 when the discount equals the subtotal. |
| Orders.NewOrder | BGC_menu.py:294-307 | Refused iff the id is empty. Otherwise the order keeps the given customer and table. It is Open, has no lines and discount 0, is valid (7% tax rate), and its total is 0. |
| Orders.AddItem | BGC_menu.py:329-349 | Fails with not-open, bad quantity or unavailable item, checked in that order. Otherwise exactly one line is appended: the item's id, name and current price, the quantity, the instructions, status Pending and the given instant. Earlier lines are unchanged and the subtotal rises by price × quantity. |
| Orders.KeepOthers | BGC_menu.py:355 | The kept lines are exactly the lines whose id differs. When no line has the id, every line is kept. |
| Orders.KeepOthersAppend | BGC_menu.py:355 | Filtering distributes over concatenation, so the kept lines keep their order. |
| Orders.KeepOthersSubtotal | BGC_menu.py:355 | Dropping lines never raises the subtotal. |
| Orders.FindLine | BGC_menu.py:375-379 | None iff no line has the item id (where `_find_item` raises). Otherwise the index of the first such line. |
| Orders.RemoveItem | BGC_menu.py:351-355 | Refused iff the order is not Open. Otherwise the lines become exactly the order-preserving filter `KeepOthers`, and nothing else changes. No line with the id remains and the subtotal does not rise. |
| Orders.MarkPreparing | BGC_menu.py:357-361 | Fails if no line has the id or the first such line is not Pending. Otherwise only that line moves, Pending → Preparing, and the subtotal is unchanged. |
| Orders.MarkServed | BGC_menu.py:363-367 | Fails if no line has the id or the first such line is not Preparing. Otherwise only that line moves, Preparing → Served. |
| Orders.CancelItem | BGC_menu.py:369-373 | Fails if no line has the id or the first such line is Served. Otherwise only that line becomes Cancelled and the subtotal falls by its amount. |
| Orders.ServedLinesAreFinal | BGC_menu.py:357-373 | No line operation changes a Served line. |
| Orders.AllItemsServed | BGC_menu.py:407-409 | True iff every line is Served or Cancelled. |
| Orders.ApplyDiscount | BGC_menu.py:392-397 | Refused iff amount < 0 or amount > current subtotal. Otherwise only the discount changes, and the total is (subtotal − discount)·(1 + tax) ≥ 0. |
| Orders.CloseOrder | BGC_menu.py:399-400 | The order becomes Closed from any status, and nothing else changes. |
| Orders.CancelOrder | BGC_menu.py:402-405 | The order and every line become Cancelled, and nothing else changes, so the subtotal becomes 0 while the discount is kept. |
| Orders.FinishedOrdersAreFrozen | BGC_menu.py:329-355 | A closed or cancelled order refuses to add or remove lines. |
| Orders.DiscountOutlivesCancellation | BGC_menu.py:386-405 | A ฿120 line, a ฿120 discount, then `cancel_order` gives the as-written total −128.40. The corrected total is 0. |
| Orders.DiscountThenCancel | BGC_menu.py:386-405 | For every valid Open order and every discount the subtotal allows, `cancel_order` leaves a total of −discount·1.07, and the corrected total is 0. |
| Orders.DiscountOutlivesRemoval | BGC_menu.py:351-397 | On an order that stays Open, two ฿100 lines, a ฿150 discount, then `remove_item` of one line give the as-written total −53.50. The corrected total is 0. |
| Orders.DiscountThenRemove | BGC_menu.py:351-397 | For every valid Open order and every discount the subtotal allows, `remove_item` keeps the order Open and its total becomes (remaining subtotal − discount)·1.07. The corrected total is 0 once the discount reaches the remaining subtotal. |
| Orders.RemoveJustAdded | BGC_menu.py:329-355 | Removing the item just added drops its new line together with any earlier lines of that item, and keeps the other lines in order. |
| Orders.PriceSnapshot | BGC_menu.py:72-77 | Re-pricing a menu item leaves the lines already ordered alone. Only later lines use the new price. |
| Orders.PayableTotal | BGC_menu.py:386-397 | The corrected total is ≥ 0 for every valid order. It equals the as-written total whenever discount ≤ subtotal. |
| Orders.PayableTotalNeverNegative | BGC_menu.py:386-405 | The corrected total of a valid order is ≥ 0, and it is 0 after cancellation. |
| OrderIds.OrderId | BGC.py:156 | The id is "ORD-" followed by at least four digits, exactly eight characters below 10000. |
| OrderIds.OrderNumberRoundTrip | BGC.py:156 | Reading an id back yields the number it was made from. |
| OrderIds.OrderIdInjective | BGC.py:156 | Distinct numbers give distinct ids. |
| OrderIds.SecondOrderId | BGC.py:156 | The second order's id is "ORD-0002". |
| Reservations.ClashSymmetric | BGC.py:122-124 | The overlap test does not depend on which reservation is the new one. |
| Reservations.FirstClash | BGC.py:121-125 | Finds the first existing reservation on the same table whose [start, end) meets the new one. None iff there is none. |
| Reservations.Book | BGC.py:120-127 | Refused iff some reservation on the same table overlaps. Otherwise exactly the new reservation is appended. |
| Reservations.BookKeepsNoDoubleBooking | BGC.py:120-127 | If no two reservations overlapped before a successful booking, none do after. |
| Reservations.OtherTablesNeverBlock | BGC.py:121-122 | Reservations on other tables never block a booking. |
| Reservations.StatusIgnored | BGC.py:121-125 | Changing an existing reservation's status neither adds nor removes a conflict. |
| Reservations.BackToBackScenario | BGC.py:123-124 | Against 14:00–16:00, 15:00–17:00 is refused and 16:00–18:00 is accepted. A cancelled 14:00–16:00 still blocks. |
| Branches.NewBranch | BGC.py:15-31 | A new branch keeps the given id, name and location. Its customer, member, order, reservation and payment lists are empty, so its revenue is 0, member ids are unique and nothing is double-booked. |
| Branches.RegisterMember | BGC.py:80-86 | Refused iff the member id is registered. Otherwise the member is appended to both the members and the customers, and nothing else changes. |
| Branches.RegisterTwiceRefused | BGC.py:80-86 | A second registration of the same member is refused. |
| Branches.UpdateMember | BGC.py:80-86 | An edit through the member object `register_member` stored reaches both lists: the first entry with the member id in `members`, and in `customers`, becomes the edited member. Nothing else changes, and member ids stay unique. |
| Branches.RegisteredMemberEditable | BGC.py:80-86 | Registering a member and then editing it (`add_points`, `increment_spend`) is the same as registering the edited member, provided the customer list held no entry for that id before. |
| Branches.CreateReservation | BGC.py:120-127 | Refused iff an overlap exists. Otherwise only the reservation list changes, by one element at the end, and it stays free of double bookings. |
| Branches.CreateOrder | BGC.py:154-159 | The new order is Open, empty, with discount 0 and total 0. It carries the given customer and table and is numbered (previous count + 1) in its id. It is the one order appended. |
| Branches.SuccessiveOrdersDistinct | BGC.py:154-159 | Two orders created in a row get different ids. |
| Branches.PlaceOrder | BGC.py:161-166 | Nothing changes if an order with that id exists. Otherwise the order is appended. Either way the id is then present. |
| Branches.PlaceOrderIdempotent | BGC.py:161-166 | Placing an order twice is the same as placing it once. |
| Branches.GetOrder | BGC.py:168-172 | None iff no order has the id. Otherwise the first order of the branch with that id. |
| Branches.PlacedOrderFound | BGC.py:161-172 | A placed order can be looked up. A newly placed id returns that very order. |
| Branches.UpdateOrder | BGC.py:154-172 | An edit through the reference that `create_order` or `get_order` returned replaces the first order with the id. `get_order` then returns the edited order, and no order with another id changes. |
| Branches.DuplicateOrderIdReachable | BGC.py:154-166 | When the branch already holds the id that `create_order` will make next, the created order duplicates it. `get_order` then returns the older order. |
| Branches.CreateOrderUnique | BGC.py:154-159 | The corrected `create_order` always makes an id the branch does not hold. It agrees with `create_order` whenever no stored sequence number exceeds the order count. |
| Branches.CreatedOrderEditable | BGC.py:154-172 | For the corrected `create_order`: an order created and then filled through the returned reference is what `get_order` finds. |
| Branches.CreatedOrderEditableAsWritten | BGC.py:154-172 | The same for `create_order` as written, whenever the id it makes is not already in the branch. |
| Branches.RevenueAppend | BGC.py:234-238 | The revenue of concatenated payment lists is the sum of their revenues. |
| Branches.Revenue | BGC.py:234-238 | The revenue loop in list order. It is 0 when no payment is Completed. Its partners are `Branches.RevenueAppend` (additive over concatenation) and `Branches.RevenueCountsCompletedOnly` (each payment adds its total iff Completed). |
| Branches.RevenueNonNegative | BGC.py:234-238 | With non-negative payment totals, the revenue is ≥ 0. |
| Branches.RevenueCountsCompletedOnly | BGC.py:234-238 | A payment adds its total if Completed and nothing otherwise. |
| Branches.BranchReport | BGC.py:234-252 | The report names the branch and its location. The revenue figure is the completed-payment revenue, and the counts are the lengths of the order, reservation, customer and member lists. |
| Branches.CorporateReport | BGC.py:254-255 | The report list has one report per branch, in branch order. |
| Branches.CorporateRevenue | BGC.py:254-263 | The revenue figures of the corporate report add up to the completed-payment revenue of all branches. |
| Branches.TotalRevenue | BGC.py:257-263 | The total over all branches' completed payments equals the sum of the revenue figures in the corporate report. |
| Branches.GetBranch | BGC.py:63-67 | None iff no branch has the id. Otherwise the first branch with that id. |
| Branches.RemoveBranch | BGC.py:69-74 | Reports true iff a branch had the id. It removes exactly the first such branch and keeps the others in order. With unique ids, the id is then absent. |

## Findings

| source | as written | input that shows it | evidently intended | confidence | as-written member | corrected member |
|---|---|---|---|---|---|---|
| BGC_menu.py:351-397 | `apply_discount` checks the discount against the subtotal only when the discount is applied. `remove_item`, `cancel_item` and `cancel_order` can later lower the subtotal below it, and `calculate_total` then returns a negative bill. | On an Open order, add two ฿100 items (qty 1 each), call `apply_discount(150)`, then `remove_item` on one of them. The order stays Open and the total is (100 − 150)·1.07 = −53.50. The `cancel_order` variant gives −128.40 (`Orders.DiscountOutlivesCancellation`). | The discount never exceeds the subtotal, so the total is never negative. | medium, not executed | Orders.DiscountOutlivesRemoval | Orders.PayableTotal |
| BGC.py:154-166 | `create_order` numbers a new order by the count of orders already in the branch. `place_order` accepts an order with any id. | Into an empty branch, `place_order` an order whose id is "ORD-0002", then `create_order`. The new order is also "ORD-0002", and `get_order("ORD-0002")` returns the older order. | Order ids within a branch are unique, so `get_order` finds the order that was created. | medium, not executed | Branches.DuplicateOrderIdReachable | Branches.CreateOrderUnique |

`Orders.Total` models `calculate_total` as written. `Orders.PayableTotal` caps the discount at the current subtotal, and `Orders.PayableTotalNeverNegative` proves that the capped total is never negative for any valid order. `Branches.CreateOrder` models `create_order` as written. `Branches.CreateOrderUnique` numbers past both the order count and the largest stored sequence number, and its contract proves the new id is fresh.

## Left out

- Credentials: `set_credentials` and `verify_password` call SHA-256 and `secrets`, which are foreign library calls. `login_user` depends on them.
- Loyalty.NewMember: does not model the username/password arguments or their non-empty check, because these feed only the credential hashing.
- Wall-clock reads: visit dates and order-line timestamps take an explicit `Instant`. They are recorded, and nothing in BGC.py, BGC_menu.py or BGC_person.py reads them back. `created_at`, `last_updated` and `join_date` are dropped. `is_birthday_today` is left out.
- `TempCustomer`: its id is built from the current time (`TEMP-` plus a Unix timestamp), so it depends on the clock. Beyond that it is a customer with a non-empty name, which `Loyalty.NewCustomer` covers.
- Float rounding: money is an exact `real`. The code's binary floating point can differ in the last places.
- Display and search helpers: `get_formatted_price`, `get_order_summary`, `get_menu_summary`, `get_item_by_name`, `search_items`, `get_items_by_category`, `get_available_items` and `get_low_stock_items` are formatting or filtering conveniences with no rules of their own.
- The Food, Drink and Snack subclasses: they add only descriptive fields and a category name.
- Staff and Manager wrappers: `take_order`, `serve_item`, `assign_table`, `handle_check_in`, `add_staff` and `view_daily_sales` check only an active flag, then call another object's operation or append to a list, re-raising what it raises. `remove_staff` and `override_inventory_stock` carry guards of their own and are in `Staffing`. Staff is reduced to its id and active flag there; salary and credentials are left out.
- Loyalty.ApproveVoidBill: the refund it triggers is not modelled. Nothing in BGC.py, BGC_menu.py, BGC_person.py, BGC_operation.py or BGC_log.py defines `Payment.refund`; BGC_operation.py gives `Payment` only a constructor.
- Payment interface: the reports read `payment.status.value` and `payment.total_amount`, but BGC_operation.py:7,9 gives `Payment` only the private `__total_amount` and `__status`, which nothing sets after construction and nothing exposes. The model assumes the public fields the reports read, with the statuses Pending, Processing, Completed, Failed and Refunded.
- Reservation interface: no reservation class is defined in BGC.py, BGC_menu.py, BGC_person.py, BGC_operation.py or BGC_log.py. The model assumes what `create_reservation` reads (the table id and the start and end instants), an id, a member id, and the statuses Pending, Confirmed, CheckedIn, Completed, Cancelled and NoShow.
- Reservation confirmation, cancellation and check-in: `confirm_reservation` and `cancel_reservation` call `confirm_booking` and `cancel_booking`, which nothing in BGC.py, BGC_menu.py, BGC_person.py, BGC_operation.py or BGC_log.py defines. The same holds for the grace period, the cancellation penalty and the table and board-game state machines.
- `process_payment`: it calls `complete_payment`, which nothing in BGC.py, BGC_menu.py, BGC_person.py, BGC_operation.py or BGC_log.py defines. Payment completion, freeing tables and crediting points are therefore absent.
- Branches.BranchReport: omits `total_games`, `total_tables`, `available_tables` and `available_games`, because the board-game and table classes are not part of this model.
- `add_customer`, `get_customer`, `get_reservation`, `get_payment`, board-game, table, menu and staff registry functions: plain appends and lookups with no rule. Lookups follow the same first-match pattern as `Branches.GetOrder`.
- `add_branch`: nothing in BGC.py, BGC_menu.py, BGC_person.py, BGC_operation.py or BGC_log.py defines it, so branches enter the model only through the `Corporate` value.
- Object aliasing: orders and members are values, not shared objects. `create_order` and `get_order` hand back a reference, and edits made through it (as demo.py:143-144 does) change the stored order. The model expresses such an edit as `Branches.UpdateOrder`, which replaces the first order with that id; it matches the reference semantics whenever order ids are unique, which `Branches.CreateOrderUnique` keeps. A member appended to both `members` and `customers` is one Python object, and demo.py edits it through the caller's reference after registering it (`add_points`, then reading tiers, spend and points back from `branch.members`). In the model, `Loyalty.AddPoints` and `Loyalty.MemberIncrementSpend` return a new member, and the branch keeps its copy until `Branches.UpdateMember` writes the edit to both lists.
- Branches.UpdateOrder: writes an edit back to the FIRST order with the id. A Python edit through the reference `create_order` returned changes the order just appended, which is the LAST one with the id. The two agree only while order ids are unique. `Branches.DuplicateOrderIdReachable` shows that the as-written `create_order` can break uniqueness, and `Branches.CreateOrderUnique` keeps it.
- Branches.UpdateMember: writes to the first entry with the member id in each list. A Python edit reaches every entry that holds the same object. The two agree when the customer list holds the member only through `register_member`, which is what `Branches.RegisteredMemberEditable` assumes.
- demo.py: it is a printing script. Its comments give tier thresholds (฿1,000 / ฿5,000) that the code does not use.

=== FILE: branches.dfy ===
/** The branch registry of BGC.py: a branch's lists of customers, members,
    orders, reservations and payments, the operations that grow them, and the
    revenue reports. The cafe itself is a list of branches. */
module Branches {
  import opened Common
  import opened Lookup
  import Loyalty
  import Orders
  import OrderIds
  import Reservations
  import Stock

  /** An entry of `branch.customers`: a walk-in customer or a registered member. */
  datatype Patron = Guest(customer: Loyalty.Customer) | Enrolled(member: Loyalty.Member)

  /** The payment states, assumed: the reports compare `status.value` with
      "Completed", but BGC_operation.py gives `Payment` only a private
      `__status` that nothing sets. */
  datatype PaymentStatus = Pending | Processing | Completed | Failed | Refunded

  /** The part of a payment the reports read (`status` and `total_amount`). */
  datatype Payment = Payment(paymentId: string, totalAmount: real, status: PaymentStatus)

  /** `BoardGameCafeBranch`. Staff, board games, tables and the menu are not
      part of this model. */
  datatype Branch = Branch(cafeId: string, name: string, location: string,
                           customers: seq<Patron>, members: seq<Loyalty.Member>,
                           orders: seq<Orders.Order>, reservations: seq<Reservations.Reservation>,
                           payments: seq<Payment>)

  /** `BoardGameCafeSystem`: the branches of the cafe. */
  datatype Cafe = Cafe(version: string, branches: seq<Branch>)

  function MemberKey(m: Loyalty.Member): string {
    m.memberId
  }

  /** The member id of a customer-list entry, if it is a registered member. */
  function PatronMember(p: Patron): Option<string> {
    if p.Enrolled? then Some(p.member.memberId) else None
  }

  function OrderKey(o: Orders.Order): string {
    o.orderId
  }

  function BranchKey(b: Branch): string {
    b.cafeId
  }

  /** `BoardGameCafeBranch.__init__`: every list starts empty. */
  function NewBranch(cafeId: string, name: string, location: string): (b: Branch)
    ensures b.cafeId == cafeId && b.name == name && b.location == location
    ensures b.customers == [] && b.members == [] && b.orders == [] && b.reservations == [] && b.payments == []
    ensures Revenue(b.payments) == 0.0
    ensures KeysUnique(b.members, MemberKey) && Reservations.NoDoubleBooking(b.reservations)
  {
    Branch(cafeId, name, location, [], [], [], [], [])
  }

  // ------------------------------------------------------------------
  // Members
  // ------------------------------------------------------------------

  /** `register_member`: refuses a member id already registered; otherwise
      the member joins both the member list and the customer list. */
  function RegisterMember(b: Branch, m: Loyalty.Member): (r: Result<Branch>)
    ensures r.Failure? <==> HasKey(b.members, MemberKey, m.memberId)
    ensures r.Failure? ==> r.error == DuplicateMember
    ensures r.Success? ==> r.value.members == b.members + [m]
    ensures r.Success? ==> r.value.customers == b.customers + [Enrolled(m)]
    ensures r.Success? ==> r.value.(members := b.members, customers := b.customers) == b
    ensures r.Success? && KeysUnique(b.members, MemberKey) ==> KeysUnique(r.value.members, MemberKey)
  {
    match FirstIndex(b.members, MemberKey, m.memberId)
    case Some(_) => Failure(DuplicateMember)
    case None =>
      FreshMemberKeepsIdsUnique(b.members, m);
      Success(b.(members := b.members + [m], customers := b.customers + [Enrolled(m)]))
  }

  lemma FreshMemberKeepsIdsUnique(members: seq<Loyalty.Member>, m: Loyalty.Member)
    requires !HasKey(members, MemberKey, m.memberId)
    ensures KeysUnique(members, MemberKey) ==> KeysUnique(members + [m], MemberKey)
  {
    if KeysUnique(members, MemberKey) {
      AppendFreshKey(members, MemberKey, m);
    }
  }

  /** An edit made through a member reference, such as `add_points` or
      `increment_spend` on the object `register_member` stored: the branch
      holds that one object in both lists, so its first entry with the
      member id in `members`, and in `customers`, becomes `m`. */
  function UpdateMember(b: Branch, m: Loyalty.Member): (r: Branch)
    ensures r.(members := b.members, customers := b.customers) == b
    ensures |r.members| == |b.members| && |r.customers| == |b.customers|
    ensures !HasKey(b.members, MemberKey, m.memberId) ==> r.members == b.members
    ensures HasKey(b.members, MemberKey, m.memberId) ==>
              var k := FirstIndex(b.members, MemberKey, m.memberId).value;
              r.members == b.members[k := m] && FirstIndex(r.members, MemberKey, m.memberId) == Some(k)
    ensures !HasKey(b.customers, PatronMember, Some(m.memberId)) ==> r.customers == b.customers
    ensures HasKey(b.customers, PatronMember, Some(m.memberId)) ==>
              r.customers == b.customers[FirstIndex(b.customers, PatronMember, Some(m.memberId)).value := Enrolled(m)]
    ensures KeysUnique(b.members, MemberKey) ==> KeysUnique(r.members, MemberKey)
  {
    var members := (
      match FirstIndex(b.members, MemberKey, m.memberId)
      case None => b.members
      case Some(k) =>
        FirstIndexAfterReplace(b.members, MemberKey, m.memberId, k, m);
        b.members[k := m]);
    var customers := (
      match FirstIndex(b.customers, PatronMember, Some(m.memberId))
      case None => b.customers
      case Some(j) => b.customers[j := Enrolled(m)]);
    b.(members := members, customers := customers)
  }

  /** The register-then-edit pattern: editing a member just registered is
      the same as registering the edited member, provided the customer list
      held no entry for that member id before. */
  lemma RegisteredMemberEditable(b: Branch, m: Loyalty.Member, m': Loyalty.Member)
    requires RegisterMember(b, m).Success?
    requires !HasKey(b.customers, PatronMember, Some(m.memberId))
    requires m'.memberId == m.memberId
    ensures RegisterMember(b, m').Success?
    ensures UpdateMember(RegisterMember(b, m).value, m') == RegisterMember(b, m').value
  {
    var b' := RegisterMember(b, m).value;
    var r := UpdateMember(b', m');
    assert r.members == b.members + [m'] by {
      assert b'.members == b.members + [m];
      FirstMatchAfter(b.members, [m], MemberKey, m.memberId);
    }
    assert r.customers == b.customers + [Enrolled(m')] by {
      assert b'.customers == b.customers + [Enrolled(m)];
      FirstMatchAfter(b.customers, [Enrolled(m)], PatronMember, Some(m.memberId));
    }
  }

  /** Registering the same member twice is refused the second time. */
  lemma RegisterTwiceRefused(b: Branch, m: Loyalty.Member)
    requires RegisterMember(b, m).Success?
    ensures RegisterMember(RegisterMember(b, m).value, m) == Failure(DuplicateMember)
  {
    var members := RegisterMember(b, m).value.members;
    assert members[|b.members|] == m;
    assert HasKey(members, MemberKey, m.memberId);
  }

  // ------------------------------------------------------------------
  // Reservations
  // ------------------------------------------------------------------

  /** `create_reservation`: on a clash the branch is refused the booking;
      otherwise exactly the new reservation is appended. */
  function CreateReservation(b: Branch, res: Reservations.Reservation): (r: Result<Branch>)
    ensures r.Failure? <==> Reservations.Conflicts(b.reservations, res)
    ensures r.Failure? ==> r.error == ReservationConflict
    ensures r.Success? ==> r.value == b.(reservations := b.reservations + [res])
    ensures r.Success? && Reservations.NoDoubleBooking(b.reservations) ==>
              Reservations.NoDoubleBooking(r.value.reservations)
  {
    match Reservations.Book(b.reservations, res)
    case Failure(e) => Failure(e)
    case Success(rs) =>
      BookedListSafe(b.reservations, res);
      Success(b.(reservations := rs))
  }

  lemma BookedListSafe(existing: seq<Reservations.Reservation>, res: Reservations.Reservation)
    requires Reservations.Book(existing, res).Success?
    ensures Reservations.NoDoubleBooking(existing) ==>
              Reservations.NoDoubleBooking(Reservations.Book(existing, res).value)
  {
    if Reservations.NoDoubleBooking(existing) {
      Reservations.BookKeepsNoDoubleBooking(existing, res);
    }
  }

  // ------------------------------------------------------------------
  // Orders
  // ------------------------------------------------------------------

  /** `create_order`: a new Open order numbered one past the current order
      count, appended to the branch. */
  function CreateOrder(b: Branch, customerId: Option<string>, tableId: Option<string>): (r: (Branch, Orders.Order))
    ensures r.1.orderId == OrderIds.OrderId(|b.orders| + 1)
    ensures OrderIds.OrderNumber(r.1.orderId) == Some(|b.orders| + 1)
    ensures r.1.status == Orders.Open && |r.1.lines| == 0 && Orders.ValidOrder(r.1)
    ensures r.1.discount == 0.0 && Orders.Total(r.1) == 0.0
    ensures r.1.customerId == customerId && r.1.tableId == tableId
    ensures r.0 == b.(orders := b.orders + [r.1])
  {
    OrderIds.OrderNumberRoundTrip(|b.orders| + 1);
    var order := Orders.OpenOrder(OrderIds.OrderId(|b.orders| + 1), customerId, tableId);
    (b.(orders := b.orders + [order]), order)
  }

  /** Two orders created one after the other get different ids. */
  lemma SuccessiveOrdersDistinct(b: Branch, c1: Option<string>, t1: Option<string>,
                                 c2: Option<string>, t2: Option<string>)
    ensures var first := CreateOrder(b, c1, t1);
      first.1.orderId != CreateOrder(first.0, c2, t2).1.orderId
  {
    OrderIds.OrderIdInjective(|b.orders| + 1, |b.orders| + 2);
  }

  /** `place_order`: appends the order unless one with its id is already there. */
  function PlaceOrder(b: Branch, o: Orders.Order): (r: Branch)
    ensures HasKey(b.orders, OrderKey, o.orderId) ==> r == b
    ensures !HasKey(b.orders, OrderKey, o.orderId) ==> r == b.(orders := b.orders + [o])
    ensures HasKey(r.orders, OrderKey, o.orderId)
  {
    match FirstIndex(b.orders, OrderKey, o.orderId)
    case Some(_) => b
    case None =>
      assert (b.orders + [o])[|b.orders|] == o;
      b.(orders := b.orders + [o])
  }

  /** Placing the same order twice is the same as placing it once. */
  lemma PlaceOrderIdempotent(b: Branch, o: Orders.Order)
    ensures PlaceOrder(PlaceOrder(b, o), o) == PlaceOrder(b, o)
  {
  }

  /** `get_order`: the first order with the id. */
  function GetOrder(b: Branch, orderId: string): (r: Option<Orders.Order>)
    ensures r.None? <==> !HasKey(b.orders, OrderKey, orderId)
    ensures r.Some? ==> r.value in b.orders && r.value.orderId == orderId
    ensures r.Some? ==> exists k ::
              && 0 <= k < |b.orders| && b.orders[k] == r.value
              && !HasKey(b.orders[..k], OrderKey, orderId)
  {
    match FirstIndex(b.orders, OrderKey, orderId)
    case None => None
    case Some(k) =>
      assert !HasKey(b.orders[..k], OrderKey, orderId);
      Some(b.orders[k])
  }

  /** A placed order can be found, and placing an order with a new id
      returns that very order on lookup. */
  lemma PlacedOrderFound(b: Branch, o: Orders.Order)
    ensures GetOrder(PlaceOrder(b, o), o.orderId).Some?
    ensures !HasKey(b.orders, OrderKey, o.orderId) ==> GetOrder(PlaceOrder(b, o), o.orderId) == Some(o)
  {
    if !HasKey(b.orders, OrderKey, o.orderId) {
      var orders := b.orders + [o];
      assert orders[|b.orders|] == o;
      assert FirstIndex(orders, OrderKey, o.orderId) == Some(|b.orders|);
    }
  }

  /** An edit made through the reference `create_order` or `get_order`
      hands out: the branch holds that same object, so its first order
      with the id becomes `o`. Nothing changes when no order has the id. */
  function UpdateOrder(b: Branch, o: Orders.Order): (r: Branch)
    ensures !HasKey(b.orders, OrderKey, o.orderId) ==> r == b
    ensures r.(orders := b.orders) == b && |r.orders| == |b.orders|
    ensures HasKey(b.orders, OrderKey, o.orderId) ==> GetOrder(r, o.orderId) == Some(o)
    ensures forall i :: 0 <= i < |b.orders| && b.orders[i].orderId != o.orderId ==> r.orders[i] == b.orders[i]
  {
    match FirstIndex(b.orders, OrderKey, o.orderId)
    case None => b
    case Some(k) =>
      var orders := b.orders[k := o];
      assert FirstIndex(orders, OrderKey, o.orderId) == Some(k) by {
        FirstIndexAfterUpdate(b.orders, k, o);
      }
      b.(orders := orders)
  }

  lemma FirstIndexAfterUpdate(orders: seq<Orders.Order>, k: nat, o: Orders.Order)
    requires FirstIndex(orders, OrderKey, o.orderId) == Some(k)
    ensures FirstIndex(orders[k := o], OrderKey, o.orderId) == Some(k)
  {
    var updated := orders[k := o];
    KeyAt(updated, OrderKey, k);
  }

  /** The largest sequence number among the branch's "ORD-" ids (0 if none). */
  function MaxOrderNumber(orders: seq<Orders.Order>): (n: nat)
    ensures forall i :: 0 <= i < |orders| && OrderIds.OrderNumber(orders[i].orderId).Some? ==>
              OrderIds.OrderNumber(orders[i].orderId).value <= n
  {
    if |orders| == 0 then 0
    else
      var rest := MaxOrderNumber(orders[..|orders| - 1]);
      var last := match OrderIds.OrderNumber(orders[|orders| - 1].orderId)
        case Some(m) => m
        case None => 0;
      if last <= rest then rest else last
  }

  /** `create_order` as evidently intended: the id is one past both the
      order count and every sequence number already in use, so it is new. */
  function CreateOrderUnique(b: Branch, customerId: Option<string>, tableId: Option<string>): (r: (Branch, Orders.Order))
    ensures !HasKey(b.orders, OrderKey, r.1.orderId)
    ensures KeysUnique(b.orders, OrderKey) ==> KeysUnique(r.0.orders, OrderKey)
    ensures MaxOrderNumber(b.orders) <= |b.orders| ==> r == CreateOrder(b, customerId, tableId)
    ensures r.1.status == Orders.Open && |r.1.lines| == 0 && Orders.ValidOrder(r.1)
    ensures r.1.discount == 0.0 && Orders.Total(r.1) == 0.0
    ensures r.1.customerId == customerId && r.1.tableId == tableId
    ensures r.0 == b.(orders := b.orders + [r.1])
  {
    var n := (if MaxOrderNumber(b.orders) <= |b.orders| then |b.orders| else MaxOrderNumber(b.orders)) + 1;
    var id := OrderIds.OrderId(n);
    OrderIds.OrderNumberRoundTrip(n);
    assert !HasKey(b.orders, OrderKey, id);
    var order := Orders.OpenOrder(id, customerId, tableId);
    FreshOrderKeepsIdsUnique(b.orders, order);
    (b.(orders := b.orders + [order]), order)
  }

  lemma FreshOrderKeepsIdsUnique(orders: seq<Orders.Order>, o: Orders.Order)
    requires !HasKey(orders, OrderKey, o.orderId)
    ensures KeysUnique(orders, OrderKey) ==> KeysUnique(orders + [o], OrderKey)
  {
    if KeysUnique(orders, OrderKey) {
      AppendFreshKey(orders, OrderKey, o);
    }
  }

  /** An order created by the corrected `create_order` and then filled
      through the returned reference is what `get_order` finds. */
  lemma CreatedOrderEditable(b: Branch, customerId: Option<string>, item: Stock.MenuItem,
                             quantity: int, now: Instant)
    ensures var (b', o) := CreateOrderUnique(b, customerId, None);
      var filled := Orders.AddItem(o, item, quantity, "", now);
      filled.Success? ==> GetOrder(UpdateOrder(b', filled.value), o.orderId) == Some(filled.value)
  {
    var (b', o) := CreateOrderUnique(b, customerId, None);
    assert b'.orders[|b.orders|] == o;
    assert HasKey(b'.orders, OrderKey, o.orderId);
  }

  /** The same for `create_order` as written, whenever the id it makes is
      not already in the branch: filling the returned order and writing it
      back is what `get_order` then finds. */
  lemma CreatedOrderEditableAsWritten(b: Branch, customerId: Option<string>, item: Stock.MenuItem,
                                      quantity: int, now: Instant)
    requires !HasKey(b.orders, OrderKey, OrderIds.OrderId(|b.orders| + 1))
    ensures var (b', o) := CreateOrder(b, customerId, None);
      var filled := Orders.AddItem(o, item, quantity, "", now);
      filled.Success? ==> GetOrder(UpdateOrder(b', filled.value), o.orderId) == Some(filled.value)
  {
    var (b', o) := CreateOrder(b, customerId, None);
    assert b'.orders[|b.orders|] == o;
    assert HasKey(b'.orders, OrderKey, o.orderId);
  }

  /** As written, `create_order` numbers by count, so it reuses an id that
      `place_order` has already stored: for example an order "ORD-0002"
      placed in an empty branch. The branch then holds two orders with the
      id, and `get_order` keeps returning the older one. */
  lemma DuplicateOrderIdReachable(b: Branch, customerId: Option<string>, tableId: Option<string>)
    requires HasKey(b.orders, OrderKey, OrderIds.OrderId(|b.orders| + 1))
    ensures var created := CreateOrder(b, customerId, tableId);
      && !KeysUnique(created.0.orders, OrderKey)
      && GetOrder(created.0, created.1.orderId) == GetOrder(b, created.1.orderId)
  {
    var created := CreateOrder(b, customerId, tableId);
    var id := created.1.orderId;
    var orders := b.orders + [created.1];
    assert created.0.orders == orders;
    assert !KeysUnique(orders, OrderKey) by {
      var k := FirstIndex(b.orders, OrderKey, id).value;
      assert orders[k] == b.orders[k] && orders[|b.orders|] == created.1;
      assert OrderKey(orders[k]) == OrderKey(orders[|b.orders|]);
    }
    assert FirstIndex(orders, OrderKey, id) == FirstIndex(b.orders, OrderKey, id) by {
      FirstMatchSurvivesAppend(b.orders, [created.1], OrderKey, id);
    }
  }

  // ------------------------------------------------------------------
  // Reports
  // ------------------------------------------------------------------

  /** What a payment adds to revenue: its total once Completed, else nothing. */
  function Earned(p: Payment): real {
    if p.status == Completed then p.totalAmount else 0.0
  }

  /** The revenue loop of `get_branch_report`, in list order. */
  function Revenue(payments: seq<Payment>): (r: real)
    ensures (forall i :: 0 <= i < |payments| ==> payments[i].status != Completed) ==> r == 0.0
  {
    if |payments| == 0 then 0.0
    else Revenue(payments[..|payments| - 1]) + Earned(payments[|payments| - 1])
  }

  lemma {:induction false} RevenueAppend(a: seq<Payment>, b: seq<Payment>)
    ensures Revenue(a + b) == Revenue(a) + Revenue(b)
    decreases |b|
  {
    if |b| > 0 {
      var b' := b[..|b| - 1];
      assert (a + b)[..|a + b| - 1] == a + b';
      RevenueAppend(a, b');
    } else {
      assert a + b == a;
    }
  }

  /** Revenue of payments with non-negative totals is never negative. */
  lemma {:induction false} RevenueNonNegative(payments: seq<Payment>)
    requires forall i :: 0 <= i < |payments| ==> payments[i].totalAmount >= 0.0
    ensures Revenue(payments) >= 0.0
  {
    if |payments| > 0 {
      RevenueNonNegative(payments[..|payments| - 1]);
    }
  }

  /** Only completed payments count: a payment that is not completed adds
      nothing, a completed one adds exactly its total. */
  lemma RevenueCountsCompletedOnly(payments: seq<Payment>, p: Payment)
    ensures p.status != Completed ==> Revenue(payments + [p]) == Revenue(payments)
    ensures p.status == Completed ==> Revenue(payments + [p]) == Revenue(payments) + p.totalAmount
  {
    assert (payments + [p])[..|payments|] == payments;
  }

  /** The figures of `get_branch_report` that this model keeps. */
  datatype Report = Report(branch: string, location: string, revenue: real, totalOrders: nat,
                           totalReservations: nat, totalCustomers: nat, totalMembers: nat)

  /** `get_branch_report`. */
  function BranchReport(b: Branch): (r: Report)
    ensures r.branch == b.name && r.location == b.location
    ensures r.revenue == Revenue(b.payments)
    ensures r.totalOrders == |b.orders| && r.totalReservations == |b.reservations|
    ensures r.totalCustomers == |b.customers| && r.totalMembers == |b.members|
  {
    Report(b.name, b.location, Revenue(b.payments), |b.orders|, |b.reservations|,
           |b.customers|, |b.members|)
  }

  /** `get_corporate_report`: one report per branch, in branch order. */
  function CorporateReport(c: Cafe): (rs: seq<Report>)
    ensures |rs| == |c.branches|
    ensures forall i :: 0 <= i < |rs| ==> rs[i] == BranchReport(c.branches[i])
  {
    seq(|c.branches|, i requires 0 <= i < |c.branches| => BranchReport(c.branches[i]))
  }

  /** Sum of the revenue figures of a list of reports. */
  function SumRevenue(reports: seq<Report>): real {
    if |reports| == 0 then 0.0
    else SumRevenue(reports[..|reports| - 1]) + reports[|reports| - 1].revenue
  }

  /** Completed-payment revenue of every branch, added up branch by branch. */
  function BranchesRevenue(branches: seq<Branch>): real {
    if |branches| == 0 then 0.0
    else BranchesRevenue(branches[..|branches| - 1]) + Revenue(branches[|branches| - 1].payments)
  }

  /** The corporate report's revenue figures add up to the revenue of all branches. */
  lemma {:induction false} CorporateRevenue(c: Cafe)
    ensures SumRevenue(CorporateReport(c)) == BranchesRevenue(c.branches)
    decreases |c.branches|
  {
    if |c.branches| > 0 {
      var init := Cafe(c.version, c.branches[..|c.branches| - 1]);
      assert CorporateReport(c)[..|c.branches| - 1] == CorporateReport(init);
      CorporateRevenue(init);
    }
  }

  /** `get_total_revenue`: the completed payments of every branch, added up
      branch by branch. It equals the sum of the corporate report's revenue figures. */
  method TotalRevenue(c: Cafe) returns (total: real)
    ensures total == BranchesRevenue(c.branches)
    ensures total == SumRevenue(CorporateReport(c))
  {
    total := 0.0;
    var i := 0;
    while i < |c.branches|
      invariant 0 <= i <= |c.branches|
      invariant total == BranchesRevenue(c.branches[..i])
    {
      var payments := c.branches[i].payments;
      var j := 0;
      while j < |payments|
        invariant 0 <= j <= |payments|
        invariant total == BranchesRevenue(c.branches[..i]) + Revenue(payments[..j])
      {
        if payments[j].status == Completed {
          total := total + payments[j].totalAmount;
        }
        assert payments[..j + 1][..j] == payments[..j];
        j := j + 1;
      }
      assert payments[..j] == payments;
      assert c.branches[..i + 1][..i] == c.branches[..i];
      i := i + 1;
    }
    assert c.branches[..i] == c.branches;
    CorporateRevenue(c);
  }

  // ------------------------------------------------------------------
  // Branch registry
  // ------------------------------------------------------------------

  /** `get_branch`: the first branch with the id. */
  function GetBranch(c: Cafe, cafeId: string): (r: Option<Branch>)
    ensures r.None? <==> !HasKey(c.branches, BranchKey, cafeId)
    ensures r.Some? ==> r.value in c.branches && r.value.cafeId == cafeId
    ensures r.Some? ==> exists k ::
              && 0 <= k < |c.branches| && c.branches[k] == r.value
              && !HasKey(c.branches[..k], BranchKey, cafeId)
  {
    match FirstIndex(c.branches, BranchKey, cafeId)
    case None => None
    case Some(k) =>
      assert !HasKey(c.branches[..k], BranchKey, cafeId);
      Some(c.branches[k])
  }

  /** `remove_branch`: drops the first branch with the id and reports whether
      there was one. */
  function RemoveBranch(c: Cafe, cafeId: string): (r: (bool, Cafe))
    ensures r.0 <==> HasKey(c.branches, BranchKey, cafeId)
    ensures !r.0 ==> r.1 == c
    ensures r.0 ==> |r.1.branches| == |c.branches| - 1 && r.1.version == c.version
    ensures r.0 ==> var k := FirstIndex(c.branches, BranchKey, cafeId).value;
      r.1.branches[..k] == c.branches[..k] && r.1.branches[k..] == c.branches[k + 1..]
    ensures KeysUnique(c.branches, BranchKey) ==>
              KeysUnique(r.1.branches, BranchKey) && GetBranch(r.1, cafeId).None?
  {
    match FirstIndex(c.branches, BranchKey, cafeId)
    case None => (false, c)
    case Some(k) =>
      UniqueRemoval(c.branches, cafeId);
      (true, c.(branches := RemoveAt(c.branches, k)))
  }

  lemma UniqueRemoval(branches: seq<Branch>, cafeId: string)
    requires HasKey(branches, BranchKey, cafeId)
    ensures var rest := RemoveAt(branches, FirstIndex(branches, BranchKey, cafeId).value);
      KeysUnique(branches, BranchKey) ==> KeysUnique(rest, BranchKey) && !HasKey(rest, BranchKey, cafeId)
  {
    if KeysUnique(branches, BranchKey) {
      RemoveKeyed(branches, BranchKey, cafeId);
    }
  }
}

=== FILE: catalog.dfy ===
/** `MenuList` of BGC_menu.py: an ordered list of menu items whose ids are
    kept unique by `add_item`. */
module Catalog {
  import opened Common
  import opened Lookup
  import opened Stock

  datatype MenuList = MenuList(menuName: string, items: seq<MenuItem>)

  function ItemKey(item: MenuItem): string {
    item.itemId
  }

  /** `MenuList.__init__`: an empty menu. */
  function NewMenuList(menuName: string): (l: MenuList)
    ensures l.menuName == menuName && |l.items| == 0 && KeysUnique(l.items, ItemKey)
  {
    MenuList(menuName, [])
  }

  /** `MenuList.add_item`: appends the item unless its id is already listed. */
  function AddItem(l: MenuList, item: MenuItem): (r: Result<MenuList>)
    ensures r.Failure? <==> HasKey(l.items, ItemKey, item.itemId)
    ensures r.Failure? ==> r.error == DuplicateItem
    ensures r.Success? ==> r.value.items == l.items + [item] && r.value.menuName == l.menuName
    ensures r.Success? && KeysUnique(l.items, ItemKey) ==> KeysUnique(r.value.items, ItemKey)
  {
    match FirstIndex(l.items, ItemKey, item.itemId)
    case Some(_) => Failure(DuplicateItem)
    case None =>
      AppendFreshKeyOf(l.items, item);
      Success(l.(items := l.items + [item]))
  }

  lemma AppendFreshKeyOf(items: seq<MenuItem>, item: MenuItem)
    requires !HasKey(items, ItemKey, item.itemId)
    ensures KeysUnique(items, ItemKey) ==> KeysUnique(items + [item], ItemKey)
  {
    if KeysUnique(items, ItemKey) {
      AppendFreshKey(items, ItemKey, item);
    }
  }

  /** `MenuList.remove_item`: drops the first item with the id and reports
      whether there was one. */
  function RemoveItem(l: MenuList, itemId: string): (r: (bool, MenuList))
    ensures r.0 <==> HasKey(l.items, ItemKey, itemId)
    ensures !r.0 ==> r.1 == l
    ensures r.0 ==> |r.1.items| == |l.items| - 1 && r.1.menuName == l.menuName
    ensures r.0 ==> exists k ::
              && 0 <= k < |l.items| && l.items[k].itemId == itemId
              && !HasKey(l.items[..k], ItemKey, itemId)
              && r.1.items == l.items[..k] + l.items[k + 1..]
    ensures forall x :: x in r.1.items ==> x in l.items
    ensures forall x :: x in l.items && x.itemId != itemId ==> x in r.1.items
    ensures KeysUnique(l.items, ItemKey) ==> KeysUnique(r.1.items, ItemKey) && !HasKey(r.1.items, ItemKey, itemId)
  {
    match FirstIndex(l.items, ItemKey, itemId)
    case None => (false, l)
    case Some(k) =>
      RemovalKeepsOthers(l.items, itemId);
      assert !HasKey(l.items[..k], ItemKey, itemId);
      (true, l.(items := RemoveAt(l.items, k)))
  }

  /** What removing the first item with an id leaves behind. */
  lemma RemovalKeepsOthers(items: seq<MenuItem>, itemId: string)
    requires HasKey(items, ItemKey, itemId)
    ensures var rest := RemoveAt(items, FirstIndex(items, ItemKey, itemId).value);
      && (forall x :: x in items && x.itemId != itemId ==> x in rest)
      && (KeysUnique(items, ItemKey) ==> KeysUnique(rest, ItemKey) && !HasKey(rest, ItemKey, itemId))
  {
    var k := FirstIndex(items, ItemKey, itemId).value;
    var rest := RemoveAt(items, k);
    forall x | x in items && x.itemId != itemId
      ensures x in rest
    {
      var j :| 0 <= j < |items| && items[j] == x;
      if j < k {
        assert rest[j] == x;
      } else {
        assert rest[j - 1] == x;
      }
    }
    if KeysUnique(items, ItemKey) {
      RemoveKeyed(items, ItemKey, itemId);
    }
  }

  /** `MenuList.get_item_by_id`: the first item with the id. */
  function GetItemById(l: MenuList, itemId: string): (r: Option<MenuItem>)
    ensures r.None? <==> !HasKey(l.items, ItemKey, itemId)
    ensures r.Some? ==> r.value in l.items && r.value.itemId == itemId
    ensures r.Some? && KeysUnique(l.items, ItemKey) ==>
              forall i :: 0 <= i < |l.items| && l.items[i].itemId == itemId ==> l.items[i] == r.value
  {
    match FirstIndex(l.items, ItemKey, itemId)
    case None => None
    case Some(k) =>
      if KeysUnique(l.items, ItemKey) then
        FirstIsOnly(l.items, ItemKey, itemId);
        Some(l.items[k])
      else
        Some(l.items[k])
  }

  /** A freshly added item is what a lookup by its id returns. */
  lemma GetAfterAdd(l: MenuList, item: MenuItem)
    requires AddItem(l, item).Success?
    ensures GetItemById(AddItem(l, item).value, item.itemId) == Some(item)
  {
    var items := AddItem(l, item).value.items;
    assert items[|l.items|] == item;
    assert HasKey(items, ItemKey, item.itemId);
  }

  /** Removing a freshly added item by its id gives back the original menu. */
  lemma RemoveAfterAdd(l: MenuList, item: MenuItem)
    requires AddItem(l, item).Success?
    ensures RemoveItem(AddItem(l, item).value, item.itemId) == (true, l)
  {
    var items := AddItem(l, item).value.items;
    assert items[|l.items|] == item;
    var k := FirstIndex(items, ItemKey, item.itemId).value;
    assert k == |l.items|;
    assert RemoveAt(items, k) == l.items;
  }
}

=== FILE: common.dfy ===
/** Values shared by every part of the cafe model: optional values, the
    outcome of an operation that may raise, and points in time. */
module Common {

  /** A point in time, in microseconds (the resolution of Python's `datetime`).
      Operations whose wall-clock reading is kept (a visit date, an order
      line's timestamp) or decides an outcome (`can_book`) take the current
      instant as a parameter. */
  type Instant = int

  datatype Option<+T> = None | Some(value: T)

  /** One constructor per kind of guard in the modelled code; the name says which guard fired. */
  datatype Error =
    | EmptyIdentifier          // an id or a name that must be non-empty was empty
    | NonPositiveAmount        // spend, points or stock quantity that must be positive was not
    | InsufficientPoints       // redeeming more points than the balance holds
    | NegativeStock            // setting a negative stock level
    | InsufficientStock        // reducing stock below zero
    | NegativePrice            // a negative menu price
    | DuplicateItem            // a menu item id that is already listed
    | OrderNotOpen             // adding or removing lines on an order that is not Open
    | NonPositiveQuantity      // an order line quantity <= 0
    | ItemUnavailable          // ordering a menu item that is not available
    | LineNotFound             // no order line carries the item id
    | LineNotPending           // mark_preparing on a line that is not Pending
    | LineNotPreparing         // mark_served on a line that is not Preparing
    | LineAlreadyServed        // cancel_item on a Served line
    | NegativeDiscount         // a discount below zero
    | DiscountExceedsSubtotal  // a discount above the current subtotal
    | ReservationConflict      // the table is already booked for an overlapping interval
    | DuplicateMember          // a member id that is already registered at the branch
    | InactiveManager          // an inactive manager approving a void, removing staff or overriding stock
    | ReasonTooShort           // a manager's reason shorter than ten characters

  /** The result of an operation that either returns a value or raises. */
  datatype Result<+T> = Success(value: T) | Failure(error: Error)
}

=== FILE: lookup.dfy ===
/** Linear search by key, the `for x in list: if x.key == k` idiom the cafe
    code uses for menu items, order lines, members, orders and branches. */
module Lookup {
  import opened Common

  /** Some element of `s` has key `k`. */
  predicate HasKey<T, K(==)>(s: seq<T>, key: T -> K, k: K) {
    exists i :: 0 <= i < |s| && key(s[i]) == k
  }

  /** Replacing the first element with key `k` by another element with key
      `k` keeps it the first. */
  lemma FirstIndexAfterReplace<T, K>(s: seq<T>, key: T -> K, k: K, i: nat, x: T)
    requires FirstIndex(s, key, k) == Some(i)
    requires key(x) == k
    ensures FirstIndex(s[i := x], key, k) == Some(i)
  {
    KeyAt(s[i := x], key, i);
  }

  /** When `s` has no element with key `k` and `more` starts with one, the
      first match in `s + more` is at position `|s|`. */
  lemma FirstMatchAfter<T, K>(s: seq<T>, more: seq<T>, key: T -> K, k: K)
    requires !HasKey(s, key, k)
    requires |more| > 0 && key(more[0]) == k
    ensures FirstIndex(s + more, key, k) == Some(|s|)
  {
    var all := s + more;
    assert all[|s|] == more[0];
    KeyAt(all, key, |s|);
    assert forall i :: 0 <= i < |s| ==> all[i] == s[i];
  }

  /** The element at position `i` witnesses its own key. */
  lemma KeyAt<T, K>(s: seq<T>, key: T -> K, i: nat)
    requires i < |s|
    ensures HasKey(s, key, key(s[i]))
  {
  }

  /** Appending never changes where the first element with a present key is. */
  lemma FirstMatchSurvivesAppend<T, K>(s: seq<T>, more: seq<T>, key: T -> K, k: K)
    requires HasKey(s, key, k)
    ensures FirstIndex(s + more, key, k) == FirstIndex(s, key, k)
  {
    var i := FirstIndex(s, key, k).value;
    var all := s + more;
    assert all[i] == s[i];
    KeyAt(all, key, i);
  }

  /** No two elements of `s` share a key. */
  predicate KeysUnique<T, K(==)>(s: seq<T>, key: T -> K) {
    forall i, j :: 0 <= i < j < |s| ==> key(s[i]) != key(s[j])
  }

  /** Position of the first element of `s` whose key is `k`, if there is one. */
  function FirstIndex<T, K(==)>(s: seq<T>, key: T -> K, k: K): (r: Option<nat>)
    ensures r.None? <==> !HasKey(s, key, k)
    ensures r.Some? ==> r.value < |s| && key(s[r.value]) == k
    ensures r.Some? ==> forall i :: 0 <= i < r.value ==> key(s[i]) != k
  {
    if |s| == 0 then None
    else if key(s[0]) == k then Some(0)
    else
      match FirstIndex(s[1..], key, k)
      case None => None
      case Some(j) => Some(j + 1)
  }

  /** `s` without its element at position `i`, the others kept in order. */
  function RemoveAt<T>(s: seq<T>, i: nat): (r: seq<T>)
    requires i < |s|
    ensures |r| == |s| - 1
    ensures forall j :: 0 <= j < i ==> r[j] == s[j]
    ensures forall j :: i <= j < |r| ==> r[j] == s[j + 1]
  {
    s[..i] + s[i + 1..]
  }

  /** With unique keys, the first element with key `k` is the only one. */
  lemma FirstIsOnly<T, K>(s: seq<T>, key: T -> K, k: K)
    requires KeysUnique(s, key)
    requires HasKey(s, key, k)
    ensures forall i :: 0 <= i < |s| && key(s[i]) == k ==> i == FirstIndex(s, key, k).value
  {
  }

  /** Removing the only element with key `k` leaves keys unique and `k` absent. */
  lemma RemoveKeyed<T, K>(s: seq<T>, key: T -> K, k: K)
    requires KeysUnique(s, key)
    requires HasKey(s, key, k)
    ensures KeysUnique(RemoveAt(s, FirstIndex(s, key, k).value), key)
    ensures !HasKey(RemoveAt(s, FirstIndex(s, key, k).value), key, k)
  {
    var i := FirstIndex(s, key, k).value;
    var r := RemoveAt(s, i);
    forall j | 0 <= j < |r|
      ensures key(r[j]) != k
    {
      if j < i {
        assert r[j] == s[j];
      } else {
        assert r[j] == s[j + 1];
      }
    }
  }

  /** Appending an element whose key is new keeps keys unique. */
  lemma AppendFreshKey<T, K>(s: seq<T>, key: T -> K, x: T)
    requires KeysUnique(s, key)
    requires !HasKey(s, key, key(x))
    ensures KeysUnique(s + [x], key)
  {
    var t := s + [x];
    forall i, j | 0 <= i < j < |t|
      ensures key(t[i]) != key(t[j])
    {
      if j == |s| {
        assert t[i] == s[i];
      }
    }
  }
}

=== FILE: loyalty.dfy ===
/** Customers and members of BGC_person.py: lifetime spend with its visit
    history, the loyalty points ledger, and the reason guard a manager must
    pass to void a bill. */
module Loyalty {
  import opened Common
  import Tiers

  /** One entry of `Customer._visit_history`. */
  datatype Visit = Visit(at: Instant, amount: real)

  datatype Customer = Customer(personId: string, name: string, contact: string,
                               totalSpend: real, visits: seq<Visit>)

  /** A `Member` is a customer with a member id, a points balance and an active flag. */
  datatype Member = Member(profile: Customer, memberId: string, points: int, isActive: bool)

  /** Sum of the amounts recorded in a visit history. */
  function HistoryTotal(visits: seq<Visit>): real {
    if |visits| == 0 then 0.0
    else HistoryTotal(visits[..|visits| - 1]) + visits[|visits| - 1].amount
  }

  /** The lifetime spend is what the visit history adds up to, and every
      recorded visit spent something. */
  predicate ConsistentHistory(c: Customer) {
    && c.totalSpend == HistoryTotal(c.visits)
    && forall i :: 0 <= i < |c.visits| ==> c.visits[i].amount > 0.0
  }

  /** `Person.__init__` / `Customer.__init__`: id and name must be non-empty;
      spend starts at zero with no visits. */
  function NewCustomer(personId: string, name: string, contact: string): (r: Result<Customer>)
    ensures r.Success? <==> personId != [] && name != []
    ensures r.Failure? ==> r.error == EmptyIdentifier
    ensures r.Success? ==> r.value.personId == personId && r.value.name == name && r.value.contact == contact
    ensures r.Success? ==> r.value.totalSpend == 0.0 && r.value.visits == [] && r.value.name != []
    ensures r.Success? ==> ConsistentHistory(r.value)
  {
    if personId == [] || name == [] then Failure(EmptyIdentifier)
    else Success(Customer(personId, name, contact, 0.0, []))
  }

  /** `Customer.increment_spend`, the clock reading `now`. */
  function IncrementSpend(c: Customer, amount: real, now: Instant): (r: Result<Customer>)
    ensures r.Failure? <==> amount <= 0.0
    ensures r.Failure? ==> r.error == NonPositiveAmount
    ensures r.Success? ==> r.value.totalSpend - c.totalSpend == amount > 0.0
    ensures r.Success? ==> |r.value.visits| == |c.visits| + 1 && r.value.visits[..|c.visits|] == c.visits
    ensures r.Success? ==> r.value.visits[|c.visits|] == Visit(now, amount)
    ensures r.Success? ==> r.value.personId == c.personId && r.value.name == c.name && r.value.contact == c.contact
  {
    if amount <= 0.0 then Failure(NonPositiveAmount)
    else Success(c.(totalSpend := c.totalSpend + amount, visits := c.visits + [Visit(now, amount)]))
  }

  /** Recording spend keeps the lifetime spend equal to the sum of the visit history. */
  lemma IncrementSpendKeepsHistory(c: Customer, amount: real, now: Instant)
    requires ConsistentHistory(c)
    requires IncrementSpend(c, amount, now).Success?
    ensures ConsistentHistory(IncrementSpend(c, amount, now).value)
  {
    var c' := IncrementSpend(c, amount, now).value;
    assert c'.visits[..|c'.visits| - 1] == c.visits;
  }

  /** With a consistent history the lifetime spend is never negative. */
  lemma {:induction false} HistoryTotalNonNegative(visits: seq<Visit>)
    requires forall i :: 0 <= i < |visits| ==> visits[i].amount > 0.0
    ensures HistoryTotal(visits) >= 0.0
    ensures |visits| > 0 ==> HistoryTotal(visits) > 0.0
  {
    if |visits| > 0 {
      HistoryTotalNonNegative(visits[..|visits| - 1]);
    }
  }

  /** `Member.__init__`: the customer part must be valid; points start at
      zero and the member is active. */
  function NewMember(personId: string, name: string, contact: string, memberId: string): (r: Result<Member>)
    ensures r.Success? <==> personId != [] && name != []
    ensures r.Success? ==> r.value.memberId == memberId && r.value.points == 0 && r.value.isActive
    ensures r.Success? ==> var p := r.value.profile;
      p.personId == personId && p.name == name && p.contact == contact && p.totalSpend == 0.0 && p.visits == []
    ensures r.Success? ==> ValidMember(r.value) && Tiers.TierOf(r.value.profile.totalSpend).None?
  {
    match NewCustomer(personId, name, contact)
    case Failure(e) => Failure(e)
    case Success(c) => Success(Member(c, memberId, 0, true))
  }

  /** `Member.get_tier`: the tier is recomputed from the spend at every call. */
  function MemberTier(m: Member): (t: Option<Tiers.Tier>)
    ensures t.None? <==> m.profile.totalSpend < Tiers.Threshold(Tiers.Silver)
    ensures t.Some? ==> Tiers.Threshold(t.value) <= m.profile.totalSpend
    ensures forall u :: Tiers.Threshold(u) <= m.profile.totalSpend ==> Tiers.Rank(Some(u)) <= Tiers.Rank(t)
  {
    Tiers.TierOf(m.profile.totalSpend)
  }

  /** `increment_spend` called on a member. */
  function MemberIncrementSpend(m: Member, amount: real, now: Instant): (r: Result<Member>)
    ensures r.Failure? <==> amount <= 0.0
    ensures r.Failure? ==> r.error == NonPositiveAmount
    ensures r.Success? ==> r.value.profile.totalSpend == m.profile.totalSpend + amount > m.profile.totalSpend
    ensures r.Success? ==> r.value.profile.visits == m.profile.visits + [Visit(now, amount)]
    ensures r.Success? ==> r.value.(profile := m.profile) == m
    ensures r.Success? ==> r.value.profile.(totalSpend := m.profile.totalSpend, visits := m.profile.visits) == m.profile
  {
    match IncrementSpend(m.profile, amount, now)
    case Failure(e) => Failure(e)
    case Success(c) => Success(m.(profile := c))
  }

  /** Spending never demotes a member. */
  lemma SpendNeverLowersTier(m: Member, amount: real, now: Instant)
    requires MemberIncrementSpend(m, amount, now).Success?
    ensures Tiers.Rank(MemberTier(m)) <= Tiers.Rank(MemberTier(MemberIncrementSpend(m, amount, now).value))
  {
    Tiers.TierMonotone(m.profile.totalSpend, MemberIncrementSpend(m, amount, now).value.profile.totalSpend);
  }

  /** `Member.add_points`. */
  function AddPoints(m: Member, amount: int): (r: Result<Member>)
    ensures r.Failure? <==> amount <= 0
    ensures r.Failure? ==> r.error == NonPositiveAmount
    ensures r.Success? ==> r.value.points - m.points == amount > 0
    ensures r.Success? ==> r.value.(points := m.points) == m
  {
    if amount <= 0 then Failure(NonPositiveAmount)
    else Success(m.(points := m.points + amount))
  }

  /** `Member.redeem_points`: the balance can never be overdrawn. */
  function RedeemPoints(m: Member, amount: int): (r: Result<Member>)
    ensures r.Failure? <==> amount <= 0 || amount > m.points
    ensures amount <= 0 ==> r == Failure(NonPositiveAmount)
    ensures 0 < amount && amount > m.points ==> r == Failure(InsufficientPoints)
    ensures r.Success? ==> 0 <= r.value.points < m.points
    ensures r.Success? ==> m.points - r.value.points == amount
    ensures r.Success? ==> r.value.(points := m.points) == m
  {
    if amount <= 0 then Failure(NonPositiveAmount)
    else if amount > m.points then Failure(InsufficientPoints)
    else Success(m.(points := m.points - amount))
  }

  /** Redeeming what was just credited restores the member exactly. */
  lemma RedeemUndoesAdd(m: Member, amount: int)
    requires m.points >= 0
    requires AddPoints(m, amount).Success?
    ensures RedeemPoints(AddPoints(m, amount).value, amount) == Success(m)
  {
    var credited := AddPoints(m, amount).value;
    assert credited.(points := credited.points - amount) == m;
  }

  /** Crediting what was just redeemed restores the member exactly. */
  lemma AddUndoesRedeem(m: Member, amount: int)
    requires RedeemPoints(m, amount).Success?
    ensures AddPoints(RedeemPoints(m, amount).value, amount) == Success(m)
  {
  }

  /** What every member the code can build satisfies: a non-negative points
      balance and a lifetime spend matching the visit history. */
  predicate ValidMember(m: Member) {
    m.points >= 0 && ConsistentHistory(m.profile)
  }

  /** Every successful ledger operation keeps a member valid. */
  lemma LedgerKeepsMemberValid(m: Member, points: int, spend: real, now: Instant)
    requires ValidMember(m)
    ensures AddPoints(m, points).Success? ==> ValidMember(AddPoints(m, points).value)
    ensures RedeemPoints(m, points).Success? ==> ValidMember(RedeemPoints(m, points).value)
    ensures MemberIncrementSpend(m, spend, now).Success? ==> ValidMember(MemberIncrementSpend(m, spend, now).value)
  {
    if spend > 0.0 {
      IncrementSpendKeepsHistory(m.profile, spend, now);
    }
  }

  /** Shortest reason a manager may give for voiding a bill, removing staff
      or overriding stock. */
  const MinReasonLength: nat := 10

  datatype Manager = Manager(personId: string, isActive: bool)

  /** The guard of `Manager.approve_void_bill`: on success, the reason handed
      on to the payment's refund. */
  function ApproveVoidBill(manager: Manager, reason: string): (r: Result<string>)
    ensures r.Success? <==> manager.isActive && |reason| >= MinReasonLength
    ensures !manager.isActive ==> r == Failure(InactiveManager)
    ensures manager.isActive && |reason| < MinReasonLength ==> r == Failure(ReasonTooShort)
    ensures r.Success? ==> r.value == reason
  {
    if !manager.isActive then Failure(InactiveManager)
    else if reason == [] || |reason| < 10 then Failure(ReasonTooShort)
    else Success(reason)
  }
}

=== FILE: orderids.dfy ===
/** The order ids `create_order` (BGC.py) hands out: "ORD-" followed by a
    sequence number zero-padded to at least four digits (`f"{n:04d}"`). */
module OrderIds {
  import opened Common

  const Prefix: string := "ORD-"

  predicate IsDigit(c: char) {
    '0' <= c <= '9'
  }

  predicate AllDigits(s: string) {
    forall i :: 0 <= i < |s| ==> IsDigit(s[i])
  }

  function DigitChar(d: nat): (c: char)
    requires d < 10
    ensures IsDigit(c)
  {
    (('0' as int) + d) as char
  }

  function DigitValue(c: char): (d: nat)
    requires IsDigit(c)
    ensures d < 10
  {
    (c as int) - ('0' as int)
  }

  /** `str(n)`: the decimal numeral of `n`, without leading zeros. */
  function Decimal(n: nat): (s: string)
    ensures 1 <= |s| && AllDigits(s)
    ensures |s| > 1 ==> s[0] != '0'
    ensures n < 10 ==> |s| == 1
    ensures n < 100 ==> |s| <= 2
    ensures n < 1000 ==> |s| <= 3
    ensures n < 10000 ==> |s| <= 4
    decreases n
  {
    if n < 10 then [DigitChar(n)] else Decimal(n / 10) + [DigitChar(n % 10)]
  }

  /** `s` left-padded with '0' up to `width` characters. */
  function PadZeros(s: string, width: nat): (p: string)
    ensures |p| == if |s| >= width then |s| else width
    ensures p[|p| - |s|..] == s
    ensures forall i :: 0 <= i < |p| - |s| ==> p[i] == '0'
  {
    if |s| >= width then s else seq(width - |s|, _ => '0') + s
  }

  /** `f"ORD-{n:04d}"`. */
  function OrderId(n: nat): (id: string)
    ensures |id| >= 8 && id[..4] == Prefix && AllDigits(id[4..])
    ensures n < 10000 ==> |id| == 8
  {
    var digits := PadZeros(Decimal(n), 4);
    assert digits == (Prefix + digits)[4..];
    Prefix + digits
  }

  /** The number a string of decimal digits denotes (leading zeros allowed). */
  function DigitsValue(s: string): nat
    requires AllDigits(s)
  {
    if |s| == 0 then 0 else DigitsValue(s[..|s| - 1]) * 10 + DigitValue(s[|s| - 1])
  }

  /** Reads the sequence number back out of an order id. */
  function OrderNumber(id: string): Option<nat> {
    if |id| > 4 && id[..4] == Prefix && AllDigits(id[4..]) then Some(DigitsValue(id[4..])) else None
  }

  lemma {:induction false} DecimalValue(n: nat)
    ensures DigitsValue(Decimal(n)) == n
    decreases n
  {
    if n >= 10 {
      var s := Decimal(n);
      assert s[..|s| - 1] == Decimal(n / 10);
      DecimalValue(n / 10);
    }
  }

  lemma {:induction false} LeadingZerosIgnored(z: string, s: string)
    requires forall i :: 0 <= i < |z| ==> z[i] == '0'
    requires AllDigits(s)
    ensures AllDigits(z + s) && DigitsValue(z + s) == DigitsValue(s)
    decreases |s|
  {
    if |s| == 0 {
      assert z + s == z;
      AllZerosValue(z);
    } else {
      var s' := s[..|s| - 1];
      assert (z + s)[..|z + s| - 1] == z + s';
      LeadingZerosIgnored(z, s');
    }
  }

  lemma {:induction false} AllZerosValue(z: string)
    requires forall i :: 0 <= i < |z| ==> z[i] == '0'
    ensures AllDigits(z) && DigitsValue(z) == 0
  {
    if |z| > 0 {
      AllZerosValue(z[..|z| - 1]);
    }
  }

  /** Reading an id back yields the sequence number it was made from. */
  lemma OrderNumberRoundTrip(n: nat)
    ensures OrderNumber(OrderId(n)) == Some(n)
  {
    var digits := Decimal(n);
    var padded := PadZeros(digits, 4);
    assert OrderId(n)[4..] == padded;
    assert padded == padded[..|padded| - |digits|] + digits;
    LeadingZerosIgnored(padded[..|padded| - |digits|], digits);
    DecimalValue(n);
  }

  /** The second order of a branch is "ORD-0002". */
  lemma SecondOrderId()
    ensures OrderId(2) == "ORD-0002"
  {
    assert Decimal(2) == "2";
    assert seq(3, _ => '0') == "000";
  }

  /** Distinct sequence numbers give distinct order ids. */
  lemma OrderIdInjective(m: nat, n: nat)
    requires m != n
    ensures OrderId(m) != OrderId(n)
  {
    OrderNumberRoundTrip(m);
    OrderNumberRoundTrip(n);
  }
}

=== FILE: orders.dfy ===
/** `Order` of BGC_menu.py: line items with a price snapshot and a per-line
    status machine, a discount, and the subtotal / tax / total formula. */
module Orders {
  import opened Common
  import opened Lookup
  import Stock

  /** Tax rate every order is created with; no operation changes it. */
  const DefaultTaxRate: real := 0.07

  /** Pending -> Preparing -> Served; anything but Served -> Cancelled. */
  datatype LineStatus = Pending | Preparing | Served | Cancelled

  datatype OrderStatus = Open | Closed | Cancelled

  /** One entry of `Order._items`. `price` is the menu price when the line
      was added, so later price changes do not reach it. */
  datatype OrderLine = OrderLine(itemId: string, name: string, price: real, quantity: int,
                                 instructions: string, status: LineStatus, addedAt: Instant)

  /** The customer and table are referred to by id; both may be absent. */
  datatype Order = Order(orderId: string, customerId: Option<string>, tableId: Option<string>,
                         status: OrderStatus, lines: seq<OrderLine>, discount: real, taxRate: real)

  function LineKey(line: OrderLine): string {
    line.itemId
  }

  /** What the code guarantees of every line: a non-negative price snapshot
      and a positive quantity. */
  predicate ValidLines(lines: seq<OrderLine>) {
    forall i :: 0 <= i < |lines| ==> lines[i].price >= 0.0 && lines[i].quantity > 0
  }

  /** What every order the code can build satisfies. */
  predicate ValidOrder(o: Order) {
    ValidLines(o.lines) && o.discount >= 0.0 && o.taxRate == DefaultTaxRate
  }

  /** The allowed moves of the line status machine. */
  predicate LineStep(from: LineStatus, to: LineStatus) {
    || (from == Pending && to == Preparing)
    || (from == Preparing && to == Served)
    || (from != Served && to == LineStatus.Cancelled)
  }

  // ------------------------------------------------------------------
  // Amounts
  // ------------------------------------------------------------------

  /** What a line adds to the subtotal: nothing once cancelled. */
  function LineAmount(line: OrderLine): real {
    if line.status == LineStatus.Cancelled then 0.0 else line.price * (line.quantity as real)
  }

  lemma LineAmountNonNegative(line: OrderLine)
    ensures line.price >= 0.0 && line.quantity > 0 ==> LineAmount(line) >= 0.0
  {
    if line.status != LineStatus.Cancelled && line.quantity > 0 {
      assert line.quantity as real >= 1.0;
    }
  }

  /** `Order.calculate_subtotal`: price times quantity summed over the lines
      that are not cancelled. */
  function Subtotal(lines: seq<OrderLine>): (s: real)
    ensures ValidLines(lines) ==> s >= 0.0
  {
    if |lines| == 0 then 0.0
    else
      var last := lines[|lines| - 1];
      LineAmountNonNegative(last);
      Subtotal(lines[..|lines| - 1]) + LineAmount(last)
  }

  lemma {:induction false} SubtotalAppend(a: seq<OrderLine>, b: seq<OrderLine>)
    ensures Subtotal(a + b) == Subtotal(a) + Subtotal(b)
    decreases |b|
  {
    if |b| > 0 {
      var b' := b[..|b| - 1];
      assert (a + b)[..|a + b| - 1] == a + b';
      SubtotalAppend(a, b');
    } else {
      assert a + b == a;
    }
  }

  /** Replacing one line changes the subtotal by the difference of the two lines' amounts. */
  lemma {:induction false} SubtotalUpdate(lines: seq<OrderLine>, k: nat, line: OrderLine)
    requires k < |lines|
    ensures Subtotal(lines[k := line]) == Subtotal(lines) - LineAmount(lines[k]) + LineAmount(line)
  {
    var before := lines[..k];
    var after := lines[k + 1..];
    assert lines == before + [lines[k]] + after;
    assert lines[k := line] == before + [line] + after;
    SubtotalAppend(before + [lines[k]], after);
    SubtotalAppend(before + [line], after);
    SubtotalAppend(before, [lines[k]]);
    SubtotalAppend(before, [line]);
    assert [lines[k]][..0] == [];
    assert [line][..0] == [];
  }

  /** With every line cancelled the subtotal is zero. */
  lemma {:induction false} SubtotalAllCancelled(lines: seq<OrderLine>)
    requires forall i :: 0 <= i < |lines| ==> lines[i].status == LineStatus.Cancelled
    ensures Subtotal(lines) == 0.0
  {
    if |lines| > 0 {
      SubtotalAllCancelled(lines[..|lines| - 1]);
    }
  }

  /** `Order.calculate_tax`: the rate applied to the discounted subtotal. */
  function Tax(o: Order): real {
    (Subtotal(o.lines) - o.discount) * o.taxRate
  }

  /** The tax of a valid order is never negative while the discount stays
      within the subtotal, and vanishes when the discount takes it all. */
  lemma TaxBounds(o: Order)
    ensures ValidOrder(o) && o.discount <= Subtotal(o.lines) ==> Tax(o) >= 0.0
    ensures o.discount == Subtotal(o.lines) ==> Tax(o) == 0.0
    ensures ValidOrder(o) ==> Tax(o) == (Subtotal(o.lines) - o.discount) * 0.07
  {
  }

  /** `Order.calculate_total`, as written: discounted subtotal plus tax. */
  function Total(o: Order): (t: real)
    ensures t == (Subtotal(o.lines) - o.discount) * (1.0 + o.taxRate)
    ensures o.taxRate >= 0.0 && o.discount <= Subtotal(o.lines) ==> t >= 0.0
  {
    Subtotal(o.lines) - o.discount + Tax(o)
  }

  /** The evidently intended total: the discount never takes more than the
      current subtotal, so the bill is never negative. */
  function PayableTotal(o: Order): (t: real)
    ensures ValidOrder(o) ==> t >= 0.0
    ensures o.discount <= Subtotal(o.lines) ==> t == Total(o)
    ensures o.discount >= Subtotal(o.lines) ==> t == 0.0
  {
    var subtotal := Subtotal(o.lines);
    var discount := if o.discount <= subtotal then o.discount else subtotal;
    var net := subtotal - discount;
    assert net >= 0.0 && (o.taxRate >= 0.0 ==> net * o.taxRate >= 0.0);
    net + net * o.taxRate
  }

  // ------------------------------------------------------------------
  // Creation and line edits
  // ------------------------------------------------------------------

  /** An Open order with no lines, no discount and the default tax rate. */
  function OpenOrder(orderId: string, customerId: Option<string>, tableId: Option<string>): (o: Order)
    ensures o.orderId == orderId && o.status == Open && |o.lines| == 0 && o.discount == 0.0
    ensures o.customerId == customerId && o.tableId == tableId
    ensures ValidOrder(o) && Subtotal(o.lines) == 0.0 && Total(o) == 0.0
  {
    Order(orderId, customerId, tableId, Open, [], 0.0, DefaultTaxRate)
  }

  /** `Order.__init__`: the order id must be non-empty. */
  function NewOrder(orderId: string, customerId: Option<string>, tableId: Option<string>): (r: Result<Order>)
    ensures r.Failure? <==> orderId == []
    ensures r.Failure? ==> r.error == EmptyIdentifier
    ensures r.Success? ==> r.value.orderId == orderId && r.value.status == Open && |r.value.lines| == 0
    ensures r.Success? ==> r.value.customerId == customerId && r.value.tableId == tableId
    ensures r.Success? ==> r.value.discount == 0.0 && ValidOrder(r.value) && Subtotal(r.value.lines) == 0.0
    ensures r.Success? ==> Total(r.value) == 0.0
  {
    if orderId == [] then Failure(EmptyIdentifier)
    else Success(OpenOrder(orderId, customerId, tableId))
  }

  /** `Order.add_item`: appends one Pending line carrying the item's current
      price. Stock is not drawn down. */
  function AddItem(o: Order, item: Stock.MenuItem, quantity: int, instructions: string, now: Instant): (r: Result<Order>)
    ensures r.Success? <==> o.status == Open && quantity > 0 && Stock.IsAvailable(item)
    ensures o.status != Open ==> r == Failure(OrderNotOpen)
    ensures o.status == Open && quantity <= 0 ==> r == Failure(NonPositiveQuantity)
    ensures o.status == Open && quantity > 0 && !Stock.IsAvailable(item) ==> r == Failure(ItemUnavailable)
    ensures r.Success? ==> |r.value.lines| == |o.lines| + 1 && r.value.lines[..|o.lines|] == o.lines
    ensures r.Success? ==>
              r.value.lines[|o.lines|] == OrderLine(item.itemId, item.name, item.price, quantity, instructions, Pending, now)
    ensures r.Success? ==> r.value.(lines := o.lines) == o
    ensures r.Success? ==> Subtotal(r.value.lines) == Subtotal(o.lines) + item.price * (quantity as real)
    ensures r.Success? && ValidOrder(o) && Stock.ValidItem(item) ==> ValidOrder(r.value)
  {
    if o.status != Open then Failure(OrderNotOpen)
    else if quantity <= 0 then Failure(NonPositiveQuantity)
    else if !Stock.IsAvailable(item) then Failure(ItemUnavailable)
    else
      var line := OrderLine(item.itemId, item.name, item.price, quantity, instructions, Pending, now);
      AppendLine(o.lines, line);
      Success(o.(lines := o.lines + [line]))
  }

  /** What appending one line does to a list of lines. */
  lemma AppendLine(lines: seq<OrderLine>, line: OrderLine)
    ensures (lines + [line])[..|lines|] == lines && (lines + [line])[|lines|] == line
    ensures Subtotal(lines + [line]) == Subtotal(lines) + LineAmount(line)
    ensures ValidLines(lines) && line.price >= 0.0 && line.quantity > 0 ==> ValidLines(lines + [line])
  {
    SubtotalAppend(lines, [line]);
    assert [line][..0] == [];
  }

  /** The lines whose item id is not `itemId`, in their original order. */
  function KeepOthers(lines: seq<OrderLine>, itemId: string): (r: seq<OrderLine>)
    ensures |r| <= |lines|
    ensures forall i :: 0 <= i < |r| ==> r[i].itemId != itemId
    ensures forall x :: x in r ==> x in lines
    ensures forall x :: x in lines && x.itemId != itemId ==> x in r
    ensures !HasKey(lines, LineKey, itemId) ==> r == lines
  {
    if |lines| == 0 then []
    else
      var last := lines[|lines| - 1];
      var kept := KeepOthers(lines[..|lines| - 1], itemId);
      assert lines == lines[..|lines| - 1] + [last];
      if last.itemId == itemId then kept else kept + [last]
  }

  /** Filtering distributes over concatenation: the kept lines stay in order. */
  lemma {:induction false} KeepOthersAppend(a: seq<OrderLine>, b: seq<OrderLine>, itemId: string)
    ensures KeepOthers(a + b, itemId) == KeepOthers(a, itemId) + KeepOthers(b, itemId)
    decreases |b|
  {
    if |b| > 0 {
      var b' := b[..|b| - 1];
      assert (a + b)[..|a + b| - 1] == a + b';
      KeepOthersAppend(a, b', itemId);
    } else {
      assert a + b == a;
    }
  }

  /** Dropping lines never raises the subtotal. */
  lemma {:induction false} KeepOthersSubtotal(lines: seq<OrderLine>, itemId: string)
    requires ValidLines(lines)
    ensures Subtotal(KeepOthers(lines, itemId)) <= Subtotal(lines)
  {
    if |lines| > 0 {
      var init := lines[..|lines| - 1];
      var last := lines[|lines| - 1];
      KeepOthersSubtotal(init, itemId);
      LineAmountNonNegative(last);
      if last.itemId != itemId {
        SubtotalAppend(KeepOthers(init, itemId), [last]);
        assert [last][..0] == [];
      }
    }
  }

  lemma KeepOthersSubtotalValid(o: Order, itemId: string)
    ensures ValidOrder(o) ==> Subtotal(KeepOthers(o.lines, itemId)) <= Subtotal(o.lines)
  {
    if ValidOrder(o) {
      KeepOthersSubtotal(o.lines, itemId);
    }
  }

  /** `Order.remove_item`: drops every line with the item id. */
  function RemoveItem(o: Order, itemId: string): (r: Result<Order>)
    ensures r.Failure? <==> o.status != Open
    ensures r.Failure? ==> r.error == OrderNotOpen
    ensures r.Success? ==> r.value.lines == KeepOthers(o.lines, itemId)
    ensures r.Success? ==> !HasKey(r.value.lines, LineKey, itemId)
    ensures r.Success? && !HasKey(o.lines, LineKey, itemId) ==> r.value == o
    ensures r.Success? ==> forall x :: x in o.lines && x.itemId != itemId ==> x in r.value.lines
    ensures r.Success? ==> forall x :: x in r.value.lines ==> x in o.lines
    ensures r.Success? ==> r.value.(lines := o.lines) == o
    ensures r.Success? && ValidOrder(o) ==> ValidOrder(r.value) && Subtotal(r.value.lines) <= Subtotal(o.lines)
  {
    if o.status != Open then Failure(OrderNotOpen)
    else
      var kept := KeepOthers(o.lines, itemId);
      KeepOthersSubtotalValid(o, itemId);
      assert !HasKey(o.lines, LineKey, itemId) ==> kept == o.lines;
      assert ValidOrder(o) ==> ValidLines(kept);
      Success(o.(lines := kept))
  }

  // ------------------------------------------------------------------
  // Line status machine
  // ------------------------------------------------------------------

  /** `Order._find_item`: the first line carrying the item id. */
  function FindLine(o: Order, itemId: string): (r: Option<nat>)
    ensures r.None? <==> forall i :: 0 <= i < |o.lines| ==> o.lines[i].itemId != itemId
    ensures r.Some? ==> r.value < |o.lines| && o.lines[r.value].itemId == itemId
    ensures r.Some? ==> forall i :: 0 <= i < r.value ==> o.lines[i].itemId != itemId
  {
    FirstIndex(o.lines, LineKey, itemId)
  }

  /** `o'` is `o` with only line `k`'s status changed to `s`. */
  predicate OneLineMoved(o: Order, o': Order, k: nat, s: LineStatus) {
    && k < |o.lines| && |o'.lines| == |o.lines|
    && o'.lines[k] == o.lines[k].(status := s)
    && (forall i :: 0 <= i < |o.lines| && i != k ==> o'.lines[i] == o.lines[i])
    && o'.(lines := o.lines) == o
  }

  function Restatus(o: Order, k: nat, s: LineStatus): (r: Order)
    requires k < |o.lines|
    ensures OneLineMoved(o, r, k, s)
    ensures o.lines[k].status != LineStatus.Cancelled && s != LineStatus.Cancelled ==>
              Subtotal(r.lines) == Subtotal(o.lines)
    ensures s == LineStatus.Cancelled ==> Subtotal(r.lines) == Subtotal(o.lines) - LineAmount(o.lines[k])
    ensures ValidOrder(o) ==> ValidOrder(r)
  {
    var lines := o.lines[k := o.lines[k].(status := s)];
    assert ValidOrder(o) ==> ValidLines(lines);
    if s == LineStatus.Cancelled then
      CancelDropsAmount(o.lines, k);
      o.(lines := lines)
    else if o.lines[k].status != LineStatus.Cancelled then
      RestatusKeepsSubtotal(o.lines, k, s);
      o.(lines := lines)
    else
      o.(lines := lines)
  }

  /** A status change that neither enters nor leaves Cancelled keeps the subtotal. */
  lemma RestatusKeepsSubtotal(lines: seq<OrderLine>, k: nat, s: LineStatus)
    requires k < |lines| && lines[k].status != LineStatus.Cancelled && s != LineStatus.Cancelled
    ensures Subtotal(lines[k := lines[k].(status := s)]) == Subtotal(lines)
  {
    var line := lines[k].(status := s);
    assert LineAmount(line) == LineAmount(lines[k]);
    SubtotalUpdate(lines, k, line);
  }

  /** Cancelling line `k` takes exactly its amount off the subtotal. */
  lemma CancelDropsAmount(lines: seq<OrderLine>, k: nat)
    requires k < |lines|
    ensures Subtotal(lines[k := lines[k].(status := LineStatus.Cancelled)]) == Subtotal(lines) - LineAmount(lines[k])
  {
    var line := lines[k].(status := LineStatus.Cancelled);
    assert LineAmount(line) == 0.0;
    SubtotalUpdate(lines, k, line);
  }

  /** `Order.mark_preparing`: Pending -> Preparing on the first line with the id. */
  function MarkPreparing(o: Order, itemId: string): (r: Result<Order>)
    ensures FindLine(o, itemId).None? ==> r == Failure(LineNotFound)
    ensures r.Success? <==> FindLine(o, itemId).Some? && o.lines[FindLine(o, itemId).value].status == Pending
    ensures FindLine(o, itemId).Some? && r.Failure? ==> r.error == LineNotPending
    ensures r.Success? ==> var k := FindLine(o, itemId).value;
      OneLineMoved(o, r.value, k, Preparing) && LineStep(o.lines[k].status, Preparing)
    ensures r.Success? ==> Subtotal(r.value.lines) == Subtotal(o.lines)
    ensures r.Success? && ValidOrder(o) ==> ValidOrder(r.value)
  {
    match FindLine(o, itemId)
    case None => Failure(LineNotFound)
    case Some(k) =>
      if o.lines[k].status != Pending then Failure(LineNotPending)
      else Success(Restatus(o, k, Preparing))
  }

  /** `Order.mark_served`: Preparing -> Served on the first line with the id. */
  function MarkServed(o: Order, itemId: string): (r: Result<Order>)
    ensures FindLine(o, itemId).None? ==> r == Failure(LineNotFound)
    ensures r.Success? <==> FindLine(o, itemId).Some? && o.lines[FindLine(o, itemId).value].status == Preparing
    ensures FindLine(o, itemId).Some? && r.Failure? ==> r.error == LineNotPreparing
    ensures r.Success? ==> var k := FindLine(o, itemId).value;
      OneLineMoved(o, r.value, k, Served) && LineStep(o.lines[k].status, Served)
    ensures r.Success? ==> Subtotal(r.value.lines) == Subtotal(o.lines)
    ensures r.Success? && ValidOrder(o) ==> ValidOrder(r.value)
  {
    match FindLine(o, itemId)
    case None => Failure(LineNotFound)
    case Some(k) =>
      if o.lines[k].status != Preparing then Failure(LineNotPreparing)
      else Success(Restatus(o, k, Served))
  }

  /** `Order.cancel_item`: the first line with the id becomes Cancelled unless
      it was already Served. */
  function CancelItem(o: Order, itemId: string): (r: Result<Order>)
    ensures FindLine(o, itemId).None? ==> r == Failure(LineNotFound)
    ensures r.Success? <==> FindLine(o, itemId).Some? && o.lines[FindLine(o, itemId).value].status != Served
    ensures FindLine(o, itemId).Some? && r.Failure? ==> r.error == LineAlreadyServed
    ensures r.Success? ==> var k := FindLine(o, itemId).value;
      && OneLineMoved(o, r.value, k, LineStatus.Cancelled)
      && LineStep(o.lines[k].status, LineStatus.Cancelled)
      && Subtotal(r.value.lines) == Subtotal(o.lines) - LineAmount(o.lines[k])
    ensures r.Success? && ValidOrder(o) ==> ValidOrder(r.value) && Subtotal(r.value.lines) <= Subtotal(o.lines)
  {
    match FindLine(o, itemId)
    case None => Failure(LineNotFound)
    case Some(k) =>
      if o.lines[k].status == Served then Failure(LineAlreadyServed)
      else
        LineAmountNonNegative(o.lines[k]);
        Success(Restatus(o, k, LineStatus.Cancelled))
  }

  /** A Served line is final: no line operation changes it. */
  lemma ServedLinesAreFinal(o: Order, itemId: string, i: nat)
    requires i < |o.lines| && o.lines[i].status == Served
    ensures MarkPreparing(o, itemId).Success? ==> MarkPreparing(o, itemId).value.lines[i] == o.lines[i]
    ensures MarkServed(o, itemId).Success? ==> MarkServed(o, itemId).value.lines[i] == o.lines[i]
    ensures CancelItem(o, itemId).Success? ==> CancelItem(o, itemId).value.lines[i] == o.lines[i]
  {
  }

  /** `Order.all_items_served`: every line that is not cancelled has been served. */
  function AllItemsServed(lines: seq<OrderLine>): (b: bool)
    ensures b <==> forall i :: 0 <= i < |lines| ==>
                      lines[i].status == Served || lines[i].status == LineStatus.Cancelled
  {
    if |lines| == 0 then true
    else
      var last := lines[|lines| - 1];
      var rest := AllItemsServed(lines[..|lines| - 1]);
      rest && (last.status == LineStatus.Cancelled || last.status == Served)
  }

  // ------------------------------------------------------------------
  // Discount and order status
  // ------------------------------------------------------------------

  /** `Order.apply_discount`: a discount between zero and the current
      subtotal replaces the previous one. The order status is not checked. */
  function ApplyDiscount(o: Order, amount: real): (r: Result<Order>)
    ensures r.Failure? <==> amount < 0.0 || amount > Subtotal(o.lines)
    ensures amount < 0.0 ==> r == Failure(NegativeDiscount)
    ensures 0.0 <= amount && amount > Subtotal(o.lines) ==> r == Failure(DiscountExceedsSubtotal)
    ensures r.Success? ==> r.value.discount == amount && r.value.(discount := o.discount) == o
    ensures r.Success? ==> Total(r.value) == (Subtotal(o.lines) - amount) * (1.0 + o.taxRate)
    ensures r.Success? && o.taxRate >= 0.0 ==> Total(r.value) >= 0.0
    ensures r.Success? && ValidOrder(o) ==> ValidOrder(r.value)
  {
    if amount < 0.0 then Failure(NegativeDiscount)
    else if amount > Subtotal(o.lines) then Failure(DiscountExceedsSubtotal)
    else Success(o.(discount := amount))
  }

  /** `Order.close_order`: marks the order Closed whatever its status. */
  function CloseOrder(o: Order): (r: Order)
    ensures r.status == Closed && r.(status := o.status) == o
    ensures Total(r) == Total(o)
    ensures ValidOrder(o) ==> ValidOrder(r)
  {
    o.(status := Closed)
  }

  /** `Order.cancel_order`: every line and the order become Cancelled. */
  function CancelOrder(o: Order): (r: Order)
    ensures r.status == OrderStatus.Cancelled && |r.lines| == |o.lines|
    ensures forall i :: 0 <= i < |o.lines| ==> r.lines[i] == o.lines[i].(status := LineStatus.Cancelled)
    ensures Subtotal(r.lines) == 0.0
    ensures r.(status := o.status, lines := o.lines) == o
    ensures ValidOrder(o) ==> ValidOrder(r)
  {
    var lines := seq(|o.lines|, i requires 0 <= i < |o.lines| => o.lines[i].(status := LineStatus.Cancelled));
    SubtotalAllCancelled(lines);
    o.(status := OrderStatus.Cancelled, lines := lines)
  }

  /** A closed or cancelled order accepts no new or removed lines. */
  lemma FinishedOrdersAreFrozen(o: Order, item: Stock.MenuItem, quantity: int, instructions: string,
                                now: Instant, itemId: string)
    ensures AddItem(CloseOrder(o), item, quantity, instructions, now) == Failure(OrderNotOpen)
    ensures RemoveItem(CloseOrder(o), itemId) == Failure(OrderNotOpen)
    ensures AddItem(CancelOrder(o), item, quantity, instructions, now) == Failure(OrderNotOpen)
    ensures RemoveItem(CancelOrder(o), itemId) == Failure(OrderNotOpen)
  {
  }

  /** As written, the discount is checked only when it is applied, so
      cancelling afterwards leaves a negative total: a ฿120 line, a ฿120
      discount, then `cancel_order` gives a total of -128.40. */
  lemma DiscountOutlivesCancellation()
    ensures var item := Stock.MenuItem("F001", "Pad Thai", 120.0, 100, true);
      var ordered := AddItem(OpenOrder("ORD-0001", None, None), item, 1, "", 0);
      ordered.Success? &&
      var discounted := ApplyDiscount(ordered.value, 120.0);
      discounted.Success? &&
      var cancelled := CancelOrder(discounted.value);
      Total(cancelled) == -128.4 && PayableTotal(cancelled) == 0.0
  {
    var ordered := OneLineOrder(120.0, 100);
    DiscountThenCancel(ordered, 120.0);
  }

  /** A discount the subtotal allows, then `cancel_order`: the total is
      the whole discount, negated, with tax. */
  lemma DiscountThenCancel(o: Order, amount: real)
    requires ValidOrder(o) && o.status == Open
    requires 0.0 <= amount <= Subtotal(o.lines)
    ensures var discounted := ApplyDiscount(o, amount);
      && discounted.Success?
      && Total(CancelOrder(discounted.value)) == -amount * 1.07
      && PayableTotal(CancelOrder(discounted.value)) == 0.0
  {
    var discounted := ApplyDiscount(o, amount).value;
    assert discounted.discount == amount && ValidOrder(discounted);
    CancelledTotal(discounted);
  }

  /** Cancelling an order leaves only its discount, with tax, in the total. */
  lemma CancelledTotal(o: Order)
    requires ValidOrder(o)
    ensures Total(CancelOrder(o)) == -o.discount * 1.07
    ensures PayableTotal(CancelOrder(o)) == 0.0
  {
    var c := CancelOrder(o);
    assert Subtotal(c.lines) == 0.0 && c.discount == o.discount && c.taxRate == DefaultTaxRate;
  }

  /** The same without leaving the Open state: two ฿100 lines, a ฿150
      discount, then `remove_item` on one of them gives a total of -53.50. */
  lemma DiscountOutlivesRemoval()
    ensures var a := Stock.MenuItem("F001", "Pad Thai", 100.0, 10, true);
      var b := Stock.MenuItem("D001", "Thai Tea", 100.0, 10, true);
      var first := AddItem(OpenOrder("ORD-0001", None, None), a, 1, "", 0);
      first.Success? &&
      var both := AddItem(first.value, b, 1, "", 0);
      both.Success? &&
      var discounted := ApplyDiscount(both.value, 150.0);
      discounted.Success? &&
      var removed := RemoveItem(discounted.value, "D001");
      removed.Success? && removed.value.status == Open &&
      Total(removed.value) == -53.5 && PayableTotal(removed.value) == 0.0
  {
    var both := TwoLineOrder();
    DiscountThenRemove(both, "D001", 150.0);
  }

  /** The Open order of the scenario above: one ฿100 line of F001, then one of D001. */
  lemma TwoLineOrder() returns (both: Order)
    ensures var first := AddItem(OpenOrder("ORD-0001", None, None),
                                 Stock.MenuItem("F001", "Pad Thai", 100.0, 10, true), 1, "", 0);
      && first.Success?
      && AddItem(first.value, Stock.MenuItem("D001", "Thai Tea", 100.0, 10, true), 1, "", 0) == Success(both)
    ensures both.status == Open && ValidOrder(both) && Subtotal(both.lines) == 200.0
    ensures Subtotal(KeepOthers(both.lines, "D001")) == 100.0
  {
    var first := OneLineOrder(100.0, 10);
    var b := Stock.MenuItem("D001", "Thai Tea", 100.0, 10, true);
    both := AddItem(first, b, 1, "", 0).value;
    RemoveJustAdded(first, b, 1, "", 0);
    assert !HasKey(first.lines, LineKey, "D001") by {
      assert first.lines == [first.lines[0]];
    }
  }

  /** The first step of both scenarios: one line of F001 at `price`. */
  lemma OneLineOrder(price: real, stock: int) returns (first: Order)
    requires price >= 0.0 && stock > 0
    ensures AddItem(OpenOrder("ORD-0001", None, None),
                    Stock.MenuItem("F001", "Pad Thai", price, stock, true), 1, "", 0) == Success(first)
    ensures first.status == Open && ValidOrder(first) && Subtotal(first.lines) == price
    ensures |first.lines| == 1 && first.lines[0].itemId == "F001"
  {
    first := AddItem(OpenOrder("ORD-0001", None, None),
                     Stock.MenuItem("F001", "Pad Thai", price, stock, true), 1, "", 0).value;
  }

  /** Removing the item just added drops exactly the lines of that item,
      the new one among them. */
  lemma RemoveJustAdded(o: Order, item: Stock.MenuItem, quantity: int, instructions: string, now: Instant)
    requires AddItem(o, item, quantity, instructions, now).Success?
    ensures KeepOthers(AddItem(o, item, quantity, instructions, now).value.lines, item.itemId)
         == KeepOthers(o.lines, item.itemId)
  {
    var lines := AddItem(o, item, quantity, instructions, now).value.lines;
    var line := lines[|o.lines|];
    assert lines == o.lines + [line];
    KeepOthersAppend(o.lines, [line], item.itemId);
    assert KeepOthers([line], item.itemId) == [] by {
      assert [line][..0] == [];
    }
  }

  /** A discount the subtotal allows, then `remove_item`: the order stays
      Open and its total is what remains after the removal, less the
      whole discount, plus tax. */
  lemma DiscountThenRemove(o: Order, itemId: string, amount: real)
    requires ValidOrder(o) && o.status == Open
    requires 0.0 <= amount <= Subtotal(o.lines)
    ensures var discounted := ApplyDiscount(o, amount);
      discounted.Success? &&
      var removed := RemoveItem(discounted.value, itemId);
      && removed.Success? && removed.value.status == Open
      && Total(removed.value) == (Subtotal(KeepOthers(o.lines, itemId)) - amount) * 1.07
      && (amount >= Subtotal(KeepOthers(o.lines, itemId)) ==> PayableTotal(removed.value) == 0.0)
  {
    var discounted := ApplyDiscount(o, amount).value;
    var removed := RemoveItem(discounted, itemId).value;
    assert removed.lines == KeepOthers(o.lines, itemId) && removed.discount == amount;
    ValidTotal(removed);
  }

  /** At the default rate the total is the discounted subtotal plus 7 %. */
  lemma ValidTotal(o: Order)
    requires ValidOrder(o)
    ensures Total(o) == (Subtotal(o.lines) - o.discount) * 1.07
  {
  }

  /** Lines keep the price they were added at: re-pricing a menu item
      changes what the next line costs, never what earlier lines cost. */
  lemma PriceSnapshot(o: Order, item: Stock.MenuItem, q1: int, q2: int, price: real, now: Instant)
    requires AddItem(o, item, q1, "", now).Success?
    requires Stock.SetPrice(item, price).Success?
    ensures var before := AddItem(o, item, q1, "", now).value;
      var after := AddItem(before, Stock.SetPrice(item, price).value, q2, "", now);
      after.Success? ==>
        && after.value.lines[..|before.lines|] == before.lines
        && Subtotal(after.value.lines) == Subtotal(o.lines) + item.price * (q1 as real) + price * (q2 as real)
  {
  }

  /** With the corrected total, no sequence of operations on a valid order
      yields a negative bill. */
  lemma PayableTotalNeverNegative(o: Order)
    requires ValidOrder(o)
    ensures PayableTotal(o) >= 0.0
    ensures PayableTotal(CancelOrder(o)) == 0.0
  {
  }
}

=== FILE: reservations.dfy ===
/** The double-booking rule of `create_reservation` (BGC.py): a reservation
    is refused when its half-open interval [start, end) meets that of any
    existing reservation on the same table, whatever that one's status. */
module Reservations {
  import opened Common

  /** The lifecycle states a reservation may carry. No file of the modelled
      code defines the reservation class, so these states are assumed; the
      overlap rule never looks at them. */
  datatype ReservationStatus = Pending | Confirmed | CheckedIn | Completed | Cancelled | NoShow

  datatype Reservation = Reservation(reservationId: string, memberId: string, tableId: string,
                                     start: Instant, end: Instant, status: ReservationStatus)

  /** The test of `create_reservation`: same table, and each interval starts
      before the other one ends. */
  predicate Clashes(incoming: Reservation, existing: Reservation) {
    && incoming.tableId == existing.tableId
    && incoming.start < existing.end
    && incoming.end > existing.start
  }

  /** Some existing reservation clashes with the incoming one. */
  predicate Conflicts(existing: seq<Reservation>, incoming: Reservation) {
    exists i :: 0 <= i < |existing| && Clashes(incoming, existing[i])
  }

  /** No two reservations in the list clash. */
  predicate NoDoubleBooking(rs: seq<Reservation>) {
    forall i, j :: 0 <= i < j < |rs| ==> !Clashes(rs[j], rs[i])
  }

  /** Clashing does not depend on which reservation is the incoming one. */
  lemma ClashSymmetric(a: Reservation, b: Reservation)
    ensures Clashes(a, b) <==> Clashes(b, a)
  {
  }

  /** The loop of `create_reservation`: the position of the first existing
      reservation the incoming one clashes with, if any. */
  function FirstClash(existing: seq<Reservation>, incoming: Reservation): (k: Option<nat>)
    ensures k.None? <==> !Conflicts(existing, incoming)
    ensures k.Some? ==> k.value < |existing| && Clashes(incoming, existing[k.value])
    ensures k.Some? ==> forall i :: 0 <= i < k.value ==> !Clashes(incoming, existing[i])
  {
    if |existing| == 0 then None
    else if Clashes(incoming, existing[0]) then Some(0)
    else
      match FirstClash(existing[1..], incoming)
      case None => None
      case Some(j) => Some(j + 1)
  }

  /** `create_reservation` on a branch's reservation list: refuse on a clash,
      otherwise append. */
  function Book(existing: seq<Reservation>, incoming: Reservation): (r: Result<seq<Reservation>>)
    ensures r.Failure? <==> Conflicts(existing, incoming)
    ensures r.Failure? ==> r.error == ReservationConflict
    ensures r.Success? ==> r.value == existing + [incoming]
  {
    match FirstClash(existing, incoming)
    case Some(_) => Failure(ReservationConflict)
    case None => Success(existing + [incoming])
  }

  /** The safety invariant: booking never creates a double booking. */
  lemma BookKeepsNoDoubleBooking(existing: seq<Reservation>, incoming: Reservation)
    requires NoDoubleBooking(existing)
    requires Book(existing, incoming).Success?
    ensures NoDoubleBooking(Book(existing, incoming).value)
  {
    var rs := existing + [incoming];
    forall i, j | 0 <= i < j < |rs|
      ensures !Clashes(rs[j], rs[i])
    {
      if j == |existing| {
        assert rs[i] == existing[i];
        assert !Clashes(incoming, existing[i]);
      } else {
        assert rs[i] == existing[i] && rs[j] == existing[j];
      }
    }
  }

  /** Reservations on other tables never block a booking. */
  lemma OtherTablesNeverBlock(existing: seq<Reservation>, incoming: Reservation)
    requires forall i :: 0 <= i < |existing| ==> existing[i].tableId != incoming.tableId
    ensures Book(existing, incoming) == Success(existing + [incoming])
  {
  }

  /** The status of an existing reservation does not matter: changing it
      neither adds nor removes a conflict. */
  lemma StatusIgnored(existing: seq<Reservation>, i: nat, s: ReservationStatus, incoming: Reservation)
    requires i < |existing|
    ensures Conflicts(existing[i := existing[i].(status := s)], incoming) <==> Conflicts(existing, incoming)
  {
    var changed := existing[i := existing[i].(status := s)];
    assert Clashes(incoming, changed[i]) <==> Clashes(incoming, existing[i]);
    if Conflicts(existing, incoming) {
      var j :| 0 <= j < |existing| && Clashes(incoming, existing[j]);
      assert Clashes(incoming, changed[j]);
    }
    if Conflicts(changed, incoming) {
      var j :| 0 <= j < |changed| && Clashes(incoming, changed[j]);
      assert Clashes(incoming, existing[j]);
    }
  }

  const MicrosPerHour: int := 3_600_000_000

  function At(hour: int): Instant {
    hour * MicrosPerHour
  }

  /** Table T holds 14:00-16:00. A request for 15:00-17:00 on T is refused, a
      request for 16:00-18:00 (starting as the other ends) is accepted, and a
      cancelled holding blocks as much as a confirmed one. */
  lemma BackToBackScenario()
    ensures var held := Reservation("RES001", "M001", "T", At(14), At(16), Confirmed);
      && Book([held], Reservation("RES002", "M002", "T", At(15), At(17), Pending)) == Failure(ReservationConflict)
      && Book([held], Reservation("RES003", "M002", "T", At(16), At(18), Pending)).Success?
      && Book([held.(status := Cancelled)], Reservation("RES002", "M002", "T", At(15), At(17), Pending))
           == Failure(ReservationConflict)
  {
    var held := Reservation("RES001", "M001", "T", At(14), At(16), Confirmed);
    assert Clashes(Reservation("RES002", "M002", "T", At(15), At(17), Pending), [held][0]);
    assert Clashes(Reservation("RES002", "M002", "T", At(15), At(17), Pending), [held.(status := Cancelled)][0]);
  }
}

=== FILE: staffing.dfy ===
/** The two manager operations of BGC_person.py that carry rules of their
    own: `remove_staff`, which deactivates a staff member, and
    `override_inventory_stock`, which sets a menu item's stock level. */
module Staffing {
  import opened Common
  import opened Lookup
  import Loyalty
  import Stock

  /** The part of `Staff` that `remove_staff` reads and changes. */
  datatype Staff = Staff(staffId: string, isActive: bool)

  function StaffKey(s: Staff): string {
    s.staffId
  }

  function SameId(id: string): string {
    id
  }

  /** What `remove_staff` hands back and leaves behind: whether a staff
      member with the id was found, the branch's staff list and the
      manager's list of managed staff ids. */
  datatype Removal = Removal(found: bool, staff: seq<Staff>, managed: seq<string>)

  /** `Manager.remove_staff`: after the activity and reason guards, the
      first staff member with the id is deactivated (it stays on the list)
      and the first copy of its id leaves the managed list. */
  function RemoveStaff(manager: Loyalty.Manager, managed: seq<string>, staff: seq<Staff>,
                       staffId: string, reason: string): (r: Result<Removal>)
    ensures r.Success? <==> manager.isActive && |reason| >= Loyalty.MinReasonLength
    ensures !manager.isActive ==> r == Failure(InactiveManager)
    ensures manager.isActive && |reason| < Loyalty.MinReasonLength ==> r == Failure(ReasonTooShort)
    ensures r.Success? ==> (r.value.found <==> HasKey(staff, StaffKey, staffId))
    ensures r.Success? && !r.value.found ==> r.value.staff == staff && r.value.managed == managed
    ensures r.Success? && r.value.found ==> exists k ::
              && 0 <= k < |staff| && staff[k].staffId == staffId
              && !HasKey(staff[..k], StaffKey, staffId)
              && r.value.staff == staff[k := staff[k].(isActive := false)]
    ensures r.Success? && r.value.found && staffId !in managed ==> r.value.managed == managed
    ensures r.Success? && r.value.found && staffId in managed ==> exists j ::
              && 0 <= j < |managed| && managed[j] == staffId && staffId !in managed[..j]
              && r.value.managed == managed[..j] + managed[j + 1..]
  {
    if !manager.isActive then Failure(InactiveManager)
    else if reason == [] || |reason| < 10 then Failure(ReasonTooShort)
    else
      match FirstIndex(staff, StaffKey, staffId)
      case None => Success(Removal(false, staff, managed))
      case Some(k) =>
        assert !HasKey(staff[..k], StaffKey, staffId);
        var kept := match FirstIndex(managed, SameId, staffId)
          case None => managed
          case Some(j) =>
            assert staffId !in managed[..j];
            managed[..j] + managed[j + 1..];
        assert staffId in managed ==> HasKey(managed, SameId, staffId) by {
          if staffId in managed {
            var i :| 0 <= i < |managed| && managed[i] == staffId;
            KeyAt(managed, SameId, i);
          }
        }
        Success(Removal(true, staff[k := staff[k].(isActive := false)], kept))
  }

  /** `remove_staff` only ever deactivates: no staff member is added, dropped
      or reactivated, and everyone but the first match keeps their flag. */
  lemma RemovalOnlyDeactivates(manager: Loyalty.Manager, managed: seq<string>, staff: seq<Staff>,
                               staffId: string, reason: string)
    requires RemoveStaff(manager, managed, staff, staffId, reason).Success?
    ensures var after := RemoveStaff(manager, managed, staff, staffId, reason).value.staff;
      && |after| == |staff|
      && (forall i :: 0 <= i < |staff| ==> after[i].staffId == staff[i].staffId)
      && (forall i :: 0 <= i < |staff| && after[i].isActive ==> staff[i].isActive)
      && (forall i :: 0 <= i < |staff| && staff[i].staffId != staffId ==> after[i] == staff[i])
  {
  }

  /** Removing the same staff member a second time still finds them, and
      leaves the staff list as the first removal did. */
  lemma RemoveStaffTwice(manager: Loyalty.Manager, managed: seq<string>, staff: seq<Staff>,
                         staffId: string, reason: string)
    requires RemoveStaff(manager, managed, staff, staffId, reason).Success?
    requires RemoveStaff(manager, managed, staff, staffId, reason).value.found
    ensures var once := RemoveStaff(manager, managed, staff, staffId, reason).value;
      var twice := RemoveStaff(manager, once.managed, once.staff, staffId, reason);
      twice.Success? && twice.value.found && twice.value.staff == once.staff
  {
    var once := RemoveStaff(manager, managed, staff, staffId, reason).value;
    var k := FirstIndex(staff, StaffKey, staffId).value;
    assert once.staff[k].staffId == staffId;
    KeyAt(once.staff, StaffKey, k);
    assert FirstIndex(once.staff, StaffKey, staffId).value == k;
  }

  /** `Manager.override_inventory_stock`: the activity guard, then a
      negative quantity, then the reason, and finally `set_stock_level`. */
  function OverrideInventoryStock(manager: Loyalty.Manager, item: Stock.MenuItem, quantity: int,
                                  reason: string): (r: Result<Stock.MenuItem>)
    ensures r.Success? <==> manager.isActive && quantity >= 0 && |reason| >= Loyalty.MinReasonLength
    ensures !manager.isActive ==> r == Failure(InactiveManager)
    ensures manager.isActive && quantity < 0 ==> r == Failure(NegativeStock)
    ensures manager.isActive && quantity >= 0 && |reason| < Loyalty.MinReasonLength ==> r == Failure(ReasonTooShort)
    ensures r.Success? ==> r.value.stockLevel == quantity && r.value.(stockLevel := item.stockLevel) == item
  {
    if !manager.isActive then Failure(InactiveManager)
    else if quantity < 0 then Failure(NegativeStock)
    else if reason == [] || |reason| < 10 then Failure(ReasonTooShort)
    else Stock.SetStockLevel(item, quantity)
  }

  /** With an active manager and a long enough reason, an override is
      exactly `set_stock_level`, refusals included. */
  lemma OverrideIsSetStockLevel(manager: Loyalty.Manager, item: Stock.MenuItem, quantity: int, reason: string)
    requires manager.isActive && |reason| >= Loyalty.MinReasonLength
    ensures OverrideInventoryStock(manager, item, quantity, reason) == Stock.SetStockLevel(item, quantity)
  {
  }
}

=== FILE: stock.dfy ===
/** `MenuItem` of BGC_menu.py: a priced catalogue entry with a stock level
    and an availability flag. The Food/Drink/Snack subclasses add only
    descriptive fields and are not distinguished here. */
module Stock {
  import opened Common

  /** At or below this stock level an item is reported as running low. */
  const LowStockThreshold: int := 5

  /** `flagAvailable` is the `_is_available` flag set by `mark_available` /
      `mark_unavailable`; whether the item can be ordered also needs stock. */
  datatype MenuItem = MenuItem(itemId: string, name: string, price: real,
                               stockLevel: int, flagAvailable: bool)

  /** What every item the code can build satisfies. */
  predicate ValidItem(item: MenuItem) {
    item.price >= 0.0 && item.stockLevel >= 0
  }

  /** `MenuItem.is_available`. */
  predicate IsAvailable(item: MenuItem) {
    item.flagAvailable && item.stockLevel > 0
  }

  /** `MenuItem.__init__`: id and name non-empty, price non-negative; a new
      item has no stock and its flag set. */
  function NewMenuItem(itemId: string, name: string, price: real): (r: Result<MenuItem>)
    ensures r.Success? <==> itemId != [] && name != [] && price >= 0.0
    ensures itemId == [] || name == [] ==> r == Failure(EmptyIdentifier)
    ensures itemId != [] && name != [] && price < 0.0 ==> r == Failure(NegativePrice)
    ensures r.Success? ==> ValidItem(r.value) && r.value.itemId == itemId && r.value.name == name && r.value.price == price
    ensures r.Success? ==> r.value.flagAvailable && !IsAvailable(r.value)
  {
    if itemId == [] || name == [] then Failure(EmptyIdentifier)
    else if price < 0.0 then Failure(NegativePrice)
    else Success(MenuItem(itemId, name, price, 0, true))
  }

  /** `MenuItem.set_price`. */
  function SetPrice(item: MenuItem, price: real): (r: Result<MenuItem>)
    ensures r.Failure? <==> price < 0.0
    ensures r.Failure? ==> r.error == NegativePrice
    ensures r.Success? ==> r.value.price == price && r.value.(price := item.price) == item
    ensures r.Success? ==> (ValidItem(item) ==> ValidItem(r.value)) && (IsAvailable(r.value) <==> IsAvailable(item))
  {
    if price < 0.0 then Failure(NegativePrice)
    else Success(item.(price := price))
  }

  /** `MenuItem.set_stock_level`. */
  function SetStockLevel(item: MenuItem, quantity: int): (r: Result<MenuItem>)
    ensures r.Failure? <==> quantity < 0
    ensures r.Failure? ==> r.error == NegativeStock
    ensures r.Success? ==> r.value.stockLevel == quantity && r.value.(stockLevel := item.stockLevel) == item
    ensures r.Success? ==> (ValidItem(item) ==> ValidItem(r.value))
    ensures r.Success? ==> (IsAvailable(r.value) <==> item.flagAvailable && quantity > 0)
  {
    if quantity < 0 then Failure(NegativeStock)
    else Success(item.(stockLevel := quantity))
  }

  /** `MenuItem.add_stock`. */
  function AddStock(item: MenuItem, quantity: int): (r: Result<MenuItem>)
    ensures r.Failure? <==> quantity <= 0
    ensures r.Failure? ==> r.error == NonPositiveAmount
    ensures r.Success? ==> r.value.stockLevel - item.stockLevel == quantity > 0
    ensures r.Success? ==> r.value.(stockLevel := item.stockLevel) == item
    ensures r.Success? ==> (ValidItem(item) ==> ValidItem(r.value) && (IsAvailable(r.value) <==> item.flagAvailable))
  {
    if quantity <= 0 then Failure(NonPositiveAmount)
    else Success(item.(stockLevel := item.stockLevel + quantity))
  }

  /** `MenuItem.reduce_stock`: stock can never be drawn below zero. */
  function ReduceStock(item: MenuItem, quantity: int): (r: Result<MenuItem>)
    ensures r.Failure? <==> quantity <= 0 || quantity > item.stockLevel
    ensures quantity <= 0 ==> r == Failure(NonPositiveAmount)
    ensures 0 < quantity && quantity > item.stockLevel ==> r == Failure(InsufficientStock)
    ensures r.Success? ==> 0 <= r.value.stockLevel < item.stockLevel
    ensures r.Success? ==> item.stockLevel - r.value.stockLevel == quantity
    ensures r.Success? ==> r.value.(stockLevel := item.stockLevel) == item
    ensures r.Success? ==> (ValidItem(item) ==> ValidItem(r.value))
    ensures r.Success? ==> (IsAvailable(r.value) <==> item.flagAvailable && quantity < item.stockLevel)
  {
    if quantity <= 0 then Failure(NonPositiveAmount)
    else if quantity > item.stockLevel then Failure(InsufficientStock)
    else Success(item.(stockLevel := item.stockLevel - quantity))
  }

  /** Taking out what was just put in restores the item exactly, and the converse. */
  lemma StockRoundTrip(item: MenuItem, quantity: int)
    requires ValidItem(item)
    ensures AddStock(item, quantity).Success? ==>
              ReduceStock(AddStock(item, quantity).value, quantity) == Success(item)
    ensures ReduceStock(item, quantity).Success? ==>
              AddStock(ReduceStock(item, quantity).value, quantity) == Success(item)
  {
    if quantity > 0 {
      var added := AddStock(item, quantity).value;
      assert added.(stockLevel := added.stockLevel - quantity) == item;
      if quantity <= item.stockLevel {
        var reduced := ReduceStock(item, quantity).value;
        assert reduced.(stockLevel := reduced.stockLevel + quantity) == item;
      }
    }
  }

  /** `MenuItem.mark_unavailable`: the item can no longer be ordered. */
  function MarkUnavailable(item: MenuItem): (r: MenuItem)
    ensures !r.flagAvailable && !IsAvailable(r)
    ensures r.(flagAvailable := item.flagAvailable) == item
  {
    item.(flagAvailable := false)
  }

  /** `MenuItem.mark_available`: orderable again exactly when there is stock. */
  function MarkAvailable(item: MenuItem): (r: MenuItem)
    ensures r.flagAvailable && (IsAvailable(r) <==> item.stockLevel > 0)
    ensures r.(flagAvailable := item.flagAvailable) == item
  {
    item.(flagAvailable := true)
  }

  /** `MenuItem.is_low_stock`. */
  predicate IsLowStock(item: MenuItem) {
    item.stockLevel <= LowStockThreshold
  }

  /** `add_stock` and `reduce_stock` are `set_stock_level` to the new level
      for every quantity they accept. */
  lemma StockMovesAreSetLevel(item: MenuItem, quantity: int)
    requires ValidItem(item)
    ensures AddStock(item, quantity).Success? ==>
              AddStock(item, quantity) == SetStockLevel(item, item.stockLevel + quantity)
    ensures ReduceStock(item, quantity).Success? ==>
              ReduceStock(item, quantity) == SetStockLevel(item, item.stockLevel - quantity)
  {
  }

  /** A withdrawn item stays off the menu however it is restocked, and the
      two flag operations undo each other. */
  lemma WithdrawalOutlastsRestock(item: MenuItem, quantity: int)
    ensures AddStock(MarkUnavailable(item), quantity).Success? ==>
              !IsAvailable(AddStock(MarkUnavailable(item), quantity).value)
    ensures SetStockLevel(MarkUnavailable(item), quantity).Success? ==>
              !IsAvailable(SetStockLevel(MarkUnavailable(item), quantity).value)
    ensures item.flagAvailable ==> MarkAvailable(MarkUnavailable(item)) == item
    ensures !item.flagAvailable ==> MarkUnavailable(MarkAvailable(item)) == item
  {
  }

  /** After any stock change the item is reported low exactly when the new
      level is at most the threshold. */
  lemma LowStockTracksLevel(item: MenuItem, quantity: int)
    ensures AddStock(item, quantity).Success? ==>
              (IsLowStock(AddStock(item, quantity).value) <==> item.stockLevel + quantity <= LowStockThreshold)
    ensures ReduceStock(item, quantity).Success? ==>
              (IsLowStock(ReduceStock(item, quantity).value) <==> item.stockLevel - quantity <= LowStockThreshold)
    ensures SetStockLevel(item, quantity).Success? ==>
              (IsLowStock(SetStockLevel(item, quantity).value) <==> quantity <= LowStockThreshold)
  {
  }
}

=== FILE: tiers.dfy ===
/** The loyalty tier policy of `Member` (BGC_person.py): lifetime spend
    resolves to an optional tier, and the tier keys the discount rate, the
    points multiplier and the booking limits. */
module Tiers {
  import opened Common

  datatype Tier = Silver | Gold | Platinum

  /** Lowest lifetime spend (baht) at which each tier is granted. */
  function Threshold(t: Tier): real {
    match t
    case Silver => 2000.0
    case Gold => 7500.0
    case Platinum => 20000.0
  }

  /** Position in the order "no tier" < Silver < Gold < Platinum. */
  function Rank(t: Option<Tier>): nat {
    match t
    case None => 0
    case Some(Silver) => 1
    case Some(Gold) => 2
    case Some(Platinum) => 3
  }

  /** `Member.determine_tier`: the tier a lifetime spend resolves to, which
      is the highest tier whose threshold the spend reaches. */
  function TierOf(spend: real): (t: Option<Tier>)
    ensures t.None? <==> spend < Threshold(Silver)
    ensures t.Some? ==> Threshold(t.value) <= spend
    ensures forall u :: Threshold(u) <= spend ==> Rank(Some(u)) <= Rank(t)
  {
    if spend >= 20000.0 then Some(Platinum)
    else if spend >= 7500.0 then Some(Gold)
    else if spend >= 2000.0 then Some(Silver)
    else None
  }

  /** Every band is closed at its lower end and open at its upper end. */
  lemma TierBands(spend: real)
    ensures TierOf(spend) == Some(Platinum) <==> 20000.0 <= spend
    ensures TierOf(spend) == Some(Gold) <==> 7500.0 <= spend < 20000.0
    ensures TierOf(spend) == Some(Silver) <==> 2000.0 <= spend < 7500.0
    ensures TierOf(spend) == None <==> spend < 2000.0
  {
  }

  /** More spend never resolves to a lower tier. */
  lemma TierMonotone(a: real, b: real)
    requires a <= b
    ensures Rank(TierOf(a)) <= Rank(TierOf(b))
  {
  }

  /** `get_discount_rate`: the share of a bill a member of tier `t` is let off. */
  function DiscountRate(t: Option<Tier>): (r: real)
    ensures 0.0 <= r <= 0.15
    ensures r == 0.0 <==> t.None?
  {
    match t
    case Some(Platinum) => 0.15
    case Some(Gold) => 0.10
    case Some(Silver) => 0.05
    case None => 0.0
  }

  /** `get_points_multiplier`: the factor applied to loyalty points. */
  function PointsMultiplier(t: Option<Tier>): (r: real)
    ensures 1.0 <= r <= 2.0
    ensures r == 1.0 <==> Rank(t) <= 1
  {
    match t
    case Some(Platinum) => 2.0
    case Some(Gold) => 1.5
    case Some(Silver) => 1.0
    case None => 1.0
  }

  /** The three entries of the dictionary `get_booking_limits` returns. */
  datatype Limits = Limits(maxBookings: nat, maxDurationHours: nat, maxAdvanceDays: nat)

  /** `get_booking_limits`: how many bookings, how long and how far ahead. */
  function BookingLimits(t: Option<Tier>): (l: Limits)
    ensures l.maxBookings == 0 <==> t.None?
    ensures t.None? ==> l == Limits(0, 0, 0)
    ensures t.Some? ==> 2 <= l.maxBookings <= 6 && 2 <= l.maxDurationHours <= 4 && 7 <= l.maxAdvanceDays <= 30
  {
    match t
    case Some(Platinum) => Limits(6, 4, 30)
    case Some(Gold) => Limits(4, 3, 14)
    case Some(Silver) => Limits(2, 2, 7)
    case None => Limits(0, 0, 0)
  }

  /** A higher tier never has a lower discount, multiplier or limit. */
  lemma BenefitsMonotone(t: Option<Tier>, u: Option<Tier>)
    requires Rank(t) <= Rank(u)
    ensures DiscountRate(t) <= DiscountRate(u)
    ensures PointsMultiplier(t) <= PointsMultiplier(u)
    ensures BookingLimits(t).maxBookings <= BookingLimits(u).maxBookings
    ensures BookingLimits(t).maxDurationHours <= BookingLimits(u).maxDurationHours
    ensures BookingLimits(t).maxAdvanceDays <= BookingLimits(u).maxAdvanceDays
  {
  }

  const MicrosPerDay: int := 86_400_000_000

  /** `(requested - now).days`: whole days from `now` to `requested`, rounded
      toward minus infinity as Python normalises a `timedelta`. */
  function AdvanceDays(now: Instant, requested: Instant): (d: int)
    ensures d * MicrosPerDay <= requested - now < (d + 1) * MicrosPerDay
  {
    (requested - now) / MicrosPerDay
  }

  /** `Member.can_book`: whether a member with lifetime spend `spend` may
      book `durationHours` hours at instant `requested`, the clock reading `now`. */
  function CanBook(spend: real, requested: Instant, durationHours: int, now: Instant): (ok: bool)
    ensures spend < Threshold(Silver) ==> !ok
    ensures ok <==>
      && TierOf(spend).Some?
      && durationHours <= BookingLimits(TierOf(spend)).maxDurationHours
      && requested - now < (BookingLimits(TierOf(spend)).maxAdvanceDays + 1) * MicrosPerDay
  {
    var limits := BookingLimits(TierOf(spend));
    if limits.maxBookings == 0 then false
    else if durationHours > limits.maxDurationHours then false
    else if AdvanceDays(now, requested) > limits.maxAdvanceDays then false
    else true
  }

  /** A booking a member may make stays allowed when their spend grows, when
      it is shortened, and when it is moved earlier. */
  lemma CanBookMonotone(spend: real, spend': real, requested: Instant, requested': Instant,
                        hours: int, hours': int, now: Instant)
    requires CanBook(spend, requested, hours, now)
    requires spend <= spend' && requested' <= requested && hours' <= hours
    ensures CanBook(spend', requested', hours', now)
  {
    TierMonotone(spend, spend');
    BenefitsMonotone(TierOf(spend), TierOf(spend'));
  }
}
